=== FILE: README.md ===
# teacher_portal in Dafny

A model of the request handlers of the teacher portal, a small Django
application. Teachers sign up, log in and reset their passwords, then add,
list, edit and delete student marks; each change to a student is written to
an audit log. The model covers three parts of the portal:

- the views of `portal/views.py`;
- the two helpers of `portal/helpers.py`, `hash_password` and `calculate_new_marks`;
- the constraints of the three tables in `portal/models.py`: the uniqueness
  rules and the `ON DELETE CASCADE` of the audit log's foreign keys.

Each view is a pure function from the current `Store` and the request's inputs
to a `Reply`: the HTTP response and the next `Store`. The `Store` holds
three tables as maps and a sequence:

- `teachers`;
- `students`;
- the audit `log`, in insertion order.

It also holds the in-process `SESSION_STORE` dictionary and the next values of
the `teachers` and `students` `AutoField` sequences. The audit table's own
`AutoField` id is represented by the row's position in `log`.

Whatever the views draw from the environment is a parameter:

- the session cookie and the form fields;
- the random salt from `os.urandom(16).hex()`;
- the token from `secrets.token_hex(16)`;
- the digest function `H`, which stands for SHA-256;
- the `IntegerField` range of the database backend, which decides what the
  edit form accepts as marks.

Two pieces of Python's text handling are modelled, because the views depend
on them: `str.strip()` and `int()` on a `str`. What each model leaves out is
listed under "Left out" on the lines starting `PyText.PyInt`.

| file | module | contents |
|---|---|---|
| `options.dfy` | `Options` | `Option` |
| `pytext.dfy` | `PyText` | `str.strip()`, `int()` on `str`, the decimal text of an integer |
| `helpers.dfy` | `Helpers` | `hash_password`, `calculate_new_marks` |
| `models.dfy` | `Models` | tables, the store invariant `Valid`, `.first()` / `.get()`, cascading deletes |
| `views.dfy` | `Views` | every view and `_get_current_teacher` |
| `branches.dfy` | `Branches` | the outcome of each branch of `add_student` |
| `invariants.dfy` | `Invariants` | every view keeps `Valid`; so does the URL dispatcher over any request sequence |
| `sessions.dfy` | `Sessions` | login, logout, signup and reset across calls |
| `records.dfy` | `Records` | the 0..100 range and the audit trail across add, edit and delete |
| `scenarios.dfy` | `Scenarios` | two-request histories of one (name, subject) pair |

### Where the code does not do what its own text says

The model follows the code in each of these cases.

- **Overflowing merge.** The `add_student` docstring says the view
  "Enforces max total marks <= 100" (portal/views.py:207), and
  portal/views.py:239-240 answers a sum above 100 with the 400 "Total marks
  cannot exceed 100". That branch cannot be reached: `calculate_new_marks`
  raises `ValueError` for such a sum first (portal/helpers.py:14-15), nothing
  catches it, and the request ends in a server error (500) with nothing
  saved. `Upsert` and `AddStudent` promise never to return the 400.
- **Audit rows on delete.** The `delete_student` docstring says the view
  "Logs deletion to AuditLog with old marks preserved" (portal/views.py:346),
  and portal/views.py:360-367 writes that `delete` row. Both foreign keys of
  `AuditLog` are `on_delete=CASCADE` (portal/models.py:29-30), so
  `student.delete()` at portal/views.py:369 removes that row again, together
  with every earlier row about the student. The rows that `add_student`
  writes "for traceability" (portal/views.py:208) do not outlive the record.
- **Marks range on edit.** `add_student` refuses marks outside 0..100
  (portal/views.py:224-225), and so does the browser before an add or an
  update (`mark < 0 || mark > 100`, portal/static/js/student_list.js:129).
  The edit form of portal/views.py:295-299 only asks for an integer in the
  column's range, so a POST to the edit page can store 150.

A password reset leaves every open session in place, the reset teacher's
included; `Sessions.ResetKeepsSessions` states it.

## Model

| member | source | states |
|---|---|---|
| PyText.Strip | portal/views.py:214-215 | the result is the text with its leading and trailing whitespace removed: it starts right after the longest all-whitespace prefix, everything after it is whitespace, and it neither starts nor ends with a character `str.isspace()` accepts; it is empty exactly when the text is all whitespace; text with nothing to strip is returned unchanged |
| PyText.StripIdempotent | portal/views.py:214-215 | stripping an already stripped name or subject changes nothing |
| PyText.PyInt | portal/views.py:217-220 | a marks field that is empty or all blanks is not a number (`ValueError`) |
| PyText.PyIntDecimal | portal/views.py:218 | `int()` reads back the exact integer, negative ones included, from its decimal text when that text has at most 4300 digits (where it is what `str()` writes), and raises `ValueError` beyond |
| PyText.DecimalIsCanonical | portal/views.py:218 | the decimal text of every integer is canonical: an optional minus, digits only, no leading zero, no "-0" |
| PyText.PyIntCanonical | portal/views.py:217-220 | the converse round trip: when `int()` reads `n` from text whose non-blank part is canonical, that part is exactly the decimal text of `n` |
| PyText.PyIntRejectsStrayChar | portal/views.py:217-220 | `int()` raises `ValueError` whenever a character between the first and last non-blank ones is neither a digit nor an underscore, unless it is a leading sign, so "1.5", "4O", "abc" and "1 2" are refused |
| PyText.PyIntSmallDecimal | portal/views.py:218 | every integer of at most three digits, the marks 0..100 among them, is read back from its decimal text |
| PyText.PyIntRejectsLongRun | portal/views.py:217-220 | a digit run longer than 4300 digits raises `ValueError` whatever its value, leading zeros counted |
| PyText.PyIntIgnoresPadding | portal/views.py:218 | blanks `int()` skips, placed on both sides of a number, do not change what it reads |
| PyText.PyIntRejectsSeparator | portal/views.py:217-220 | with a separator U+001C..U+001F in front of a number, `strip()` would leave the number, but `int()` raises `ValueError` |
| Helpers.HashPassword | portal/helpers.py:5-10 | the digest is `H(password + salt)` for the salt returned; a non-empty given salt is kept; a missing or empty one is replaced by the fresh salt |
| Helpers.HashPasswordVerifies | portal/helpers.py:5-10 | hashing again with the returned salt reproduces the same (digest, salt) pair, whatever fresh salt is on offer |
| Helpers.FreshSaltIsKept | portal/helpers.py:7-8 | a 32-hex-digit salt is never replaced when passed back in |
| Helpers.CalculateNewMarks | portal/helpers.py:12-22 | the sum is returned exactly when it is at most 100; otherwise `ValueError` with the message "Total marks cannot exceed 100"; two non-negative marks give a total in 0..100 |
| Helpers.MergeBoundary | portal/helpers.py:14-15 | a total of exactly 100 is accepted; 101 raises |
| Models.Valid | portal/models.py:3-38 | the invariant of a reachable store: keys below their sequence counters, unique usernames, unique (name, subject), non-empty salts, audit rows whose foreign keys resolve and that are never `delete` rows |
| Models.EmptyIsValid | portal/models.py:3-38 | an empty database with an empty session dictionary satisfies `Valid` |
| Models.First | portal/views.py:236 | `.first()` is `None` exactly on an empty match set; otherwise it is the match with the smallest id |
| Models.Get | portal/views.py:121 | `.get()` finds nothing on an empty match set and one row exactly when one row matches; otherwise it raises |
| Models.UniqueUsernameLookup | portal/models.py:5 | with usernames unique, `.get(username=…)` never finds several rows |
| Models.SortedIds | portal/views.py:193 | `order_by("id")` lists every id exactly once, strictly ascending |
| Models.Surviving | portal/models.py:29-30 | after a cascading delete, a row remains exactly when it was there and is not deleted; none are added |
| Models.SurvivingKeepsRows | portal/models.py:29-30 | a cascade through one foreign key leaves each other key's rows in order, with repeats; the rows removed are exactly those that point at the deleted key (multiset equation) |
| Models.DeleteStudentRow | portal/models.py:30 | `student.delete()` removes the record and every audit row about it; each other student's audit rows stay exactly as they were, in order within that student and with repeats; teachers and sessions are untouched |
| Models.LoggedRowVanishes | portal/views.py:360-369 | a row appended just before a delete stays last in the surviving log unless it is about the deleted student; a row about the student is removed by the cascade, so the store ends as if it had never been written |
| Models.DeleteTeacherRow | portal/models.py:29 | `teacher.delete()` removes the teacher and its audit rows; every other teacher's rows stay as they were; the session dictionary is untouched |
| Models.DeleteTeacherRowPreservesValid | portal/models.py:29-30 | deleting a teacher keeps the store invariant, because the cascade leaves no dangling audit row |
| Views.CurrentTeacher | portal/views.py:152-164 | a teacher is signed in exactly when the cookie is present and non-empty, the token is in the session dictionary, and the teacher it names still exists |
| Views.Signup | portal/views.py:22-50 | a POST redirects to login exactly when the stripped username and the password are non-empty and the username is unused; it then inserts one teacher under the next id, hashed with the fresh salt; every other request changes nothing |
| Views.Login | portal/views.py:108-135 | a POST logs in exactly when one teacher has the stripped username and the digest under the stored salt matches; it then maps the token to that teacher and sets the cookie; otherwise nothing changes |
| Views.Logout | portal/views.py:138-149 | the cookie's token leaves the session dictionary, the cookie is deleted, and the same cookie no longer signs anyone in |
| Views.ForgotPassword | portal/views.py:53-105 | a POST with a username alone shows the password fields, pre-filled with that username, exactly when the account exists; with a username alone or with both password fields, "Username not found" appears exactly when it does not; "Passwords do not match" appears exactly for an existing account with two different non-empty password fields; "Please fill all required fields" appears exactly for a POST with a blank username or with exactly one of the two password fields filled in; the success page appears exactly for a POST with a non-empty stripped username that one teacher has, and two equal non-empty password fields; that teacher's digest and salt are then replaced by the new password hashed under the fresh salt; any other outcome changes nothing |
| Views.StudentsPage | portal/views.py:171-180 | the list page is rendered exactly for a signed-in teacher, with that teacher's username |
| Views.ViewsOf | portal/views.py:194-197 | one `{id, name, subject, mark}` entry per id, in the same order |
| Views.SortedViews | portal/views.py:193-197 | the listed records are all the students, each exactly once, in ascending id order |
| Views.ListStudents | portal/views.py:183-198 | a GET from a signed-in teacher succeeds, listing every student once in ascending id order; the store never changes |
| Views.Upsert | portal/views.py:227-292 | an accepted add appends exactly one audit row by the teacher about the record it returns; the reply shows that record as stored; no other record changes; the unreachable 400 "Total marks cannot exceed 100" is never returned |
| Views.AddStudent | portal/views.py:201-292 | a success requires a POST from a signed-in teacher with non-empty stripped name and subject and marks that `int()` reads as 0..100; it appends one audit row by that teacher; every failure leaves the store as it was |
| Views.EditFormValid | portal/views.py:295-299 | `is_valid()` of the model form: stripped name and subject non-empty, at most 100 characters and NUL-free, marks an integer in the column's range, and (name, subject) not held by another student |
| Views.EditStudent | portal/views.py:302-338 | the store changes exactly on a POST from a signed-in teacher for an existing id with a valid form; it then overwrites the record, appends one `edit` row with the old and new marks, and redirects to the list; an unknown id gives 404 |
| Views.DeleteStudent | portal/views.py:341-370 | succeeds exactly for a POST from a signed-in teacher on an existing id; an unknown id gives 404; the result is the cascading delete of the record, so every other student's audit rows stay as they were and the student's own rows, the new `delete` row included, are gone |
| Branches.AddRejectsBadInput | portal/views.py:210-225 | no session gives 401; then unreadable marks, blank fields, and marks outside 0..100 each give their 400 message in that order; the store is unchanged |
| Branches.AddRejectsSeparatedMarks | portal/views.py:217-220 | marks written with a separator U+001C..U+001F in front give "Marks must be a number" |
| Branches.AddRejectsNonNumericMarks | portal/views.py:217-220 | marks text with such a character inside, "1.5" or "1 2" say, gives "Marks must be a number" with the store unchanged |
| Branches.AddRejectsLongMarks | portal/views.py:217-220 | marks written with more than 4300 digits, such as 4299 zeros before "40", give "Marks must be a number" with the store unchanged |
| Branches.AddDecides | portal/views.py:214-226 | input that passes every guard reaches the three-way decision with the stripped name and subject and the parsed marks |
| Branches.NamedSingleton | portal/models.py:25 | under `unique_together` a (name, subject) pair matches exactly one record |
| Branches.UpsertRejectsExactDuplicate | portal/views.py:228-233 | a record with the same name, subject and marks makes the add a 400 with the store unchanged |
| Branches.NoExactMatch | portal/models.py:25 | a (name, subject) match with other marks rules out an exact match and is the only match |
| Branches.UpsertMergesMarks | portal/views.py:236-264 | a match whose sum stays within 100 gets the sum, one `update` row with old and new marks, and a reply showing the merged record |
| Branches.UpsertOverflowCrashes | portal/views.py:236-240 | a match whose sum passes 100 ends in a server error with the store, log included, unchanged |
| Branches.UpsertCreatesRecord | portal/views.py:266-292 | with no (name, subject) match, a record is created under the next id with one `create` row without old marks |
| Invariants.SignupPreservesValid | portal/views.py:29-48 | signup keeps `Valid`, given a salt shaped like `os.urandom(16).hex()` |
| Invariants.TeacherAddedValid | portal/views.py:40-45 | inserting a teacher with an unused username and a non-empty salt under the next id keeps `Valid` |
| Invariants.LoginPreservesValid | portal/views.py:116-133 | login keeps `Valid` |
| Invariants.ForgotPasswordPreservesValid | portal/views.py:90-95 | a password reset keeps `Valid` |
| Invariants.AddStudentPreservesValid | portal/views.py:201-292 | `add_student` keeps `Valid`, uniqueness of (name, subject) included |
| Invariants.UpsertPreservesValid | portal/views.py:227-292 | the three-way decision keeps `Valid` |
| Invariants.CreatedStoreValid | portal/views.py:267-282 | inserting a new (name, subject) record with its `create` row keeps `Valid` |
| Invariants.MergedStoreValid | portal/views.py:242-254 | changing one record's marks with its `update` row keeps `Valid` |
| Invariants.EditStudentPreservesValid | portal/views.py:316-333 | the edit keeps `Valid` |
| Invariants.EditedStoreValid | portal/views.py:321-332 | overwriting a record with a (name, subject) no other record holds, plus its `edit` row, keeps `Valid` |
| Invariants.DeleteStudentPreservesValid | portal/views.py:357-369 | the delete keeps `Valid`, so no `delete` row survives |
| Invariants.HandlePreservesValid | portal/urls.py:5-19 | every URL's view keeps `Valid` |
| Invariants.RunPreservesValid | portal/urls.py:5-19 | any sequence of requests keeps `Valid` |
| Invariants.NoDeleteRowSurvives | portal/views.py:360-369 | in every store reachable from an empty database, the audit log holds no `delete` row, and every row names an existing student |
| Sessions.LoginSucceedsIff | portal/views.py:116-133 | on a valid store a login succeeds exactly when some teacher has the stripped username and the matching digest; the token then names that teacher; otherwise "Invalid credentials" with the store unchanged |
| Sessions.LoginThenResolve | portal/views.py:127-131 | the token a login hands out signs in the teacher who logged in |
| Sessions.LogoutIdempotent | portal/views.py:144-149 | logging out twice is logging out once |
| Sessions.DeletedTeacherSessionIsStale | portal/views.py:159-164 | a token naming a deleted teacher stays in the dictionary but signs no one in |
| Sessions.SignupThenLogin | portal/views.py:39-45 | the password a teacher signed up with logs them in under the new id |
| Sessions.LoginAfterSignup | portal/views.py:120-128 | the freshly inserted teacher is the only one with that username, and the password matches its digest |
| Sessions.ResetThenLogin | portal/views.py:90-95 | after a successful reset the new password logs in |
| Sessions.ResetKeepsSessions | portal/views.py:90-95 | a password reset changes no one's session |
| Sessions.UnauthenticatedIsRejected | portal/views.py:171-212 | without a session the JSON endpoints answer 401 and the pages redirect to login, changing nothing |
| Records.AddKeepsMarksInRange | portal/views.py:224-240 | `add_student` keeps every mark within 0..100 |
| Records.UpsertKeepsMarksInRange | portal/views.py:236-240 | a merge never stores a total above 100 |
| Records.EditCanLeaveRange | portal/views.py:295-299 | a valid edit can store marks of 150 |
| Records.DeleteLeavesNoTrace | portal/views.py:360-369 | after a delete, no audit row mentions the student |
| Records.DeleteKeepsOtherRows | portal/views.py:369 | a delete leaves every other record and its audit rows exactly as they were |
| Scenarios.AddMarksDecides | portal/views.py:214-226 | marks in 0..100, sent as `str(marks)`, reach the decision unchanged |
| Scenarios.FirstAddCreates | portal/views.py:266-282 | the first add of a pair creates the record under the next id with one `create` row |
| Scenarios.AfterFirstAdd | portal/views.py:266-282 | after the first add of 40 the pair exists once, and the cookie still signs the teacher in |
| Scenarios.SecondAddMerges | portal/views.py:236-264 | a second add with other marks whose sum stays within 100 stores the sum and appends an `update` row |
| Scenarios.FortyThenThirty | portal/views.py:236-254 | adding 40 then 30 leaves one record with 70, a `create` row and an `update` row |
| Scenarios.FortyThenSeventy | portal/helpers.py:13-15 | adding 40 then 70 ends in a server error, and the record keeps 40 |
| Scenarios.FortyTwice | portal/views.py:228-233 | adding 40 twice is refused as an exact duplicate, with no new row |
| Scenarios.FortyThenDelete | portal/views.py:357-369 | adding 40 and then deleting the record brings students and log back to what they were before the add |

## Left out

- Timestamps: `created_at`, `updated_at` and the audit `timestamp` (the
  portal uses `timezone.now()`) are not modelled. No view reads them back.
- Concurrency is not modelled. Each request runs to completion before the
  next; the read-then-write merge race in `add_student` is out of scope.
- Models.Store: `SESSION_STORE` is a module-level dictionary. It is private
  to one worker process and lost on restart. The model has one dictionary
  that lives as long as the store does.
- Rendering: templates and their HTML, `messages.success`, and the
  `HttpOnly`/`SameSite=Lax` flags of the session cookie are out of scope.
  So is the CSRF middleware: a request the middleware would refuse reaches
  the view in the model.
- Helpers.HashPassword: `H` stands for the hex SHA-256 digest of the UTF-8
  bytes of `password + salt`. The model assumes only that `H` is a function.
  Collision freedom is not assumed, and no property depends on it.
- Models.TeachersNamed: username, name and subject lookups compare strings
  exactly. A database collation that ignores case or trailing spaces would
  match more rows.
- Views.Signup: `Teacher.objects.create()` does not run field validators,
  so the `max_length=50` on `username` is not checked by the portal. Whether
  the database refuses a longer one depends on its column type, which the
  unmanaged tables do not fix. The model stores any length.
- Views.Upsert: for the same reason, `max_length=100` on `name` and
  `subject` is not checked when a record is created.
- Views.EditStudent: the form's `IntegerField` cleaning is taken as done.
  The form carries the integer it produced, or nothing. The rules of
  `forms.IntegerField.to_python` are not modelled, such as accepting "5.0"
  and surrounding blanks.
- PyText.PyInt: Python also reads Unicode decimal digits from other scripts
  as digits. For example, `int("٣")` is 3. The model reads only ASCII
  digits, so it refuses such marks, where the portal would accept them.
- PyText.PyInt: the digit limit is CPython's default of 4300
  (`sys.int_info.default_max_str_digits`), present since 3.11 and in the
  3.7.14, 3.8.14, 3.9.14 and 3.10.7 releases. An interpreter started with
  another limit, with none, or an older release reads longer runs; the
  model does not.
- Views.EditStudent: a GET renders the form pre-filled from the record. The
  model returns the page without its contents.
- Error pages: the bodies of the 404 and 405 responses and of the server
  error page are not modelled, only their status.
- `portal/static/js/student_list.js` is not part of this model. It is the
  browser side that calls the JSON endpoints; the model takes the form
  fields it would send as inputs. `Decimal` stands for the decimal text a
  browser form submits for the marks.
- `portal/security.py` is not part of this model. It holds a second copy of
  `hash_password` that the views do not import.
- `portal/urls.py` is modelled only as the dispatcher `Invariants.Handle`.
  Route names, URL parsing and the `<int:student_id>` converter are out of
  scope. Ids reach the views as integers.
- Models.Store: the `AutoField` sequences are modelled as counters that go
  up by one on each insert. A database may skip values, which no property
  depends on.

=== FILE: branches.dfy ===
/**
  The outcome of each branch of `add_student`, `edit_student_form`,
  `delete_student` and `login_view`, stated in terms of the records in the
  store rather than the queries the view runs.
 */
module Branches {
  import opened Options
  import opened PyText
  import opened Helpers
  import opened Models
  import opened Views

  /** The request passes every guard `add_student` checks before looking at the table. */
  predicate AddInputAccepted(s: Store, cookie: Option<string>, nameField: string, subjectField: string, marksField: Option<string>) {
    && CurrentTeacher(s, cookie).Some?
    && PyInt(marksField.GetOr("0")).Some?
    && Strip(nameField) != "" && Strip(subjectField) != ""
    && 0 <= PyInt(marksField.GetOr("0")).value <= 100
  }

  lemma NamedSingleton(students: map<Id, Student>, id: Id)
    requires UniqueNameSubject(students)
    requires id in students
    ensures StudentsNamed(students, students[id].name, students[id].subject) == {id}
  {
  }

  /**
    Rejections: no session gives 401, then a marks field `int()` cannot
    read, then a blank name or subject, then marks outside 0..100, each
    with its message and each leaving the store exactly as it was.
   */
  lemma AddRejectsBadInput(s: Store, cookie: Option<string>, nameField: string, subjectField: string, marksField: Option<string>)
    requires !AddInputAccepted(s, cookie, nameField, subjectField, marksField)
    ensures AddStudent(s, POST, cookie, nameField, subjectField, marksField).store == s
    ensures AddStudent(s, POST, cookie, nameField, subjectField, marksField).response ==
      if CurrentTeacher(s, cookie).None? then Json(401, Failure(NotAuthenticated))
      else if PyInt(marksField.GetOr("0")).None? then Json(400, Failure(MarksNotANumber))
      else if Strip(nameField) == "" || Strip(subjectField) == "" then Json(400, Failure(FieldsRequired))
      else Json(400, Failure(MarksOutOfRange))
  {
  }

  /**
    A marks field with a separator U+001C..U+001F in front of the number is
    refused as not a number, although stripping the same text would leave
    the number alone.
   */
  lemma AddRejectsSeparatedMarks(s: Store, cookie: Option<string>, nameField: string, subjectField: string, c: char, n: int)
    requires CurrentTeacher(s, cookie).Some?
    requires 28 <= c as int <= 31
    ensures AddStudent(s, POST, cookie, nameField, subjectField, Some([c] + Decimal(n))) == Reply(Json(400, Failure(MarksNotANumber)), s)
  {
    PyIntRejectsSeparator(c, n);
    AddRejectsBadInput(s, cookie, nameField, subjectField, Some([c] + Decimal(n)));
  }

  /**
    Marks written with more than `MaxStrDigits` digits are refused as not a
    number, even when their value is in range: leading zeros count.
   */
  lemma AddRejectsLongMarks(s: Store, cookie: Option<string>, nameField: string, subjectField: string, zeros: nat, n: nat)
    requires CurrentTeacher(s, cookie).Some?
    requires zeros + DecimalDigits(n) > MaxStrDigits
    ensures AddStudent(s, POST, cookie, nameField, subjectField, Some(seq(zeros, _ => '0') + Decimal(n))) == Reply(Json(400, Failure(MarksNotANumber)), s)
  {
    PyIntRejectsLongRun(zeros, n);
    AddRejectsBadInput(s, cookie, nameField, subjectField, Some(seq(zeros, _ => '0') + Decimal(n)));
  }

  /**
    Marks text with a character `int()` cannot read inside it, such as "1.5",
    "4O" or "1 2", is refused as not a number. `marks[j]` and `marks[k]` are
    non-blank characters around the offending `marks[i]`.
   */
  lemma AddRejectsNonNumericMarks(s: Store, cookie: Option<string>, nameField: string, subjectField: string, marks: string, j: nat, i: nat, k: nat)
    requires CurrentTeacher(s, cookie).Some?
    requires j <= i <= k < |marks|
    requires !IsIntSpace(marks[j]) && !IsIntSpace(marks[k])
    requires !IsDigit(marks[i]) && marks[i] != '_'
    requires j == i ==> marks[i] != '+' && marks[i] != '-'
    ensures AddStudent(s, POST, cookie, nameField, subjectField, Some(marks)) == Reply(Json(400, Failure(MarksNotANumber)), s)
  {
    PyIntRejectsStrayChar(marks, j, i, k);
    AddRejectsBadInput(s, cookie, nameField, subjectField, Some(marks));
  }

  /** Accepted input goes to the three-way decision with the stripped name and subject and the parsed marks. */
  lemma AddDecides(s: Store, cookie: Option<string>, nameField: string, subjectField: string, marksField: Option<string>)
    requires AddInputAccepted(s, cookie, nameField, subjectField, marksField)
    ensures AddStudent(s, POST, cookie, nameField, subjectField, marksField) ==
      Upsert(s, CurrentTeacher(s, cookie).value, Strip(nameField), Strip(subjectField), PyInt(marksField.GetOr("0")).value)
  {
  }

  /** An exact (name, subject, marks) match is refused before any merge is tried. */
  lemma UpsertRejectsExactDuplicate(s: Store, t: Id, name: string, subject: string, marks: int, id: Id)
    requires id in s.students && s.students[id] == Student(name, subject, marks)
    ensures Upsert(s, t, name, subject, marks) == Reply(Json(400, Failure(DuplicateRecord)), s)
  {
    assert id in StudentsExactly(s.students, name, subject, marks);
  }

  /** Under `unique_together`, a (name, subject) match with other marks rules out an exact match. */
  lemma NoExactMatch(s: Store, name: string, subject: string, marks: int, id: Id)
    requires UniqueNameSubject(s.students)
    requires id in s.students && s.students[id].name == name && s.students[id].subject == subject
    requires s.students[id].marks != marks
    ensures StudentsExactly(s.students, name, subject, marks) == {}
    ensures StudentsNamed(s.students, name, subject) == {id}
  {
    NamedSingleton(s.students, id);
    forall x | x in s.students
      ensures x !in StudentsExactly(s.students, name, subject, marks)
    {
      if s.students[x].name == name && s.students[x].subject == subject {
        assert x in StudentsNamed(s.students, name, subject);
      }
    }
  }

  /**
    The (name, subject) pair exists with other marks and the sum stays
    within 100: that record alone takes the sum, and one `update` row
    records the previous and the new marks.
   */
  lemma UpsertMergesMarks(s: Store, t: Id, name: string, subject: string, marks: int, id: Id)
    requires UniqueNameSubject(s.students)
    requires id in s.students && s.students[id].name == name && s.students[id].subject == subject
    requires s.students[id].marks != marks
    requires s.students[id].marks + marks <= 100
    ensures
      var previous := s.students[id].marks;
      var merged := Student(name, subject, previous + marks);
      Upsert(s, t, name, subject, marks) ==
        Reply(Json(200, StudentBody(View(id, merged))),
              s.(students := s.students[id := merged],
                 log := s.log + [AuditEntry(t, id, Update, Some(previous), Some(previous + marks))]))
  {
    NoExactMatch(s, name, subject, marks, id);
  }

  /**
    The same situation with a sum above 100 (a sum above 100 from equal
    marks is an exact duplicate and refused as such): `calculate_new_marks` raises
    before anything is saved, the exception escapes the view (HTTP 500) and
    the store, log included, is unchanged.
   */
  lemma UpsertOverflowCrashes(s: Store, t: Id, name: string, subject: string, marks: int, id: Id)
    requires UniqueNameSubject(s.students)
    requires id in s.students && s.students[id].name == name && s.students[id].subject == subject
    requires s.students[id].marks != marks
    requires s.students[id].marks + marks > 100
    ensures Upsert(s, t, name, subject, marks) == Reply(ServerError, s)
  {
    NoExactMatch(s, name, subject, marks, id);
  }

  /**
    No record has the (name, subject) pair: a record with the given marks is
    created under the next id and one `create` row with no previous marks
    is appended.
   */
  lemma UpsertCreatesRecord(s: Store, t: Id, name: string, subject: string, marks: int)
    requires forall x :: x in s.students ==> !(s.students[x].name == name && s.students[x].subject == subject)
    ensures
      var created := Student(name, subject, marks);
      var id := s.nextStudentId;
      Upsert(s, t, name, subject, marks) ==
        Reply(Json(200, StudentBody(View(id, created))),
              s.(students := s.students[id := created],
                 log := s.log + [AuditEntry(t, id, Create, None, Some(marks))],
                 nextStudentId := id + 1))
  {
    assert StudentsNamed(s.students, name, subject) == {};
    assert StudentsExactly(s.students, name, subject, marks) == {} by {
      forall x | x in s.students
        ensures x !in StudentsExactly(s.students, name, subject, marks)
      {
      }
    }
  }
}

=== FILE: helpers.dfy ===
/**
  The two helpers the views import: salted password hashing and the rule
  that merges marks when a (name, subject) pair is added a second time.
 */
module Helpers {
  import opened Options

  /**
    The digest function. The portal uses SHA-256 over the UTF-8 encoding of
    `password + salt`, rendered as hex; the model only relies on it being a
    function, so every operation that hashes takes it as a parameter.
   */
  type Hasher = string -> string

  /** `os.urandom(n).hex()` and `secrets.token_hex(n)`: 2n lower-case hex digits. */
  predicate IsHexToken(s: string, bytes: nat) {
    |s| == 2 * bytes && forall i :: 0 <= i < |s| ==> s[i] in "0123456789abcdef"
  }

  datatype Hashed = Hashed(digest: string, salt: string)

  /**
    `hash_password(password, salt)`. A missing or empty salt (`if not salt`)
    is replaced by `newSalt`, the value `os.urandom(16).hex()` produced; either
    way the salt actually used is returned next to the digest.
   */
  function HashPassword(H: Hasher, password: string, salt: Option<string>, newSalt: string): (r: Hashed)
    ensures r.digest == H(password + r.salt)
    ensures salt.Some? && salt.value != "" ==> r.salt == salt.value
    ensures salt.None? || salt.value == "" ==> r.salt == newSalt
  {
    var used := if salt.Some? && salt.value != "" then salt.value else newSalt;
    Hashed(H(password + used), used)
  }

  /**
    Hashing again with the salt that was returned reproduces the same pair,
    whatever new salt is on offer: this is what makes a stored
    (digest, salt) verifiable at login.
   */
  lemma HashPasswordVerifies(H: Hasher, password: string, salt: Option<string>, newSalt: string, otherSalt: string)
    requires HashPassword(H, password, salt, newSalt).salt != ""
    ensures HashPassword(H, password, Some(HashPassword(H, password, salt, newSalt).salt), otherSalt)
         == HashPassword(H, password, salt, newSalt)
  {
  }

  /** A salt drawn from `os.urandom(16).hex()` is never empty, so it is never replaced. */
  lemma FreshSaltIsKept(H: Hasher, password: string, newSalt: string, otherSalt: string)
    requires IsHexToken(newSalt, 16)
    ensures HashPassword(H, password, Some(newSalt), otherSalt) == HashPassword(H, password, None, newSalt)
  {
  }

  datatype MarksResult = Total(value: int) | ValueError(message: string)

  /**
    `calculate_new_marks(existing, added)`: the sum, or `ValueError` once the
    sum exceeds 100. The second `return` after the first is unreachable, so
    this is the rule's only behaviour.
   */
  function CalculateNewMarks(existing: int, added: int): (r: MarksResult)
    ensures r.Total? <==> existing + added <= 100
    ensures r.Total? ==> r.value == existing + added
    ensures r.ValueError? ==> r.message == "Total marks cannot exceed 100"
    ensures r.Total? && 0 <= existing && 0 <= added ==> 0 <= r.value <= 100
  {
    var total := existing + added;
    if total > 100 then ValueError("Total marks cannot exceed 100") else Total(total)
  }

  /** The comparison is strict: a total of exactly 100 is accepted, 101 is not. */
  lemma MergeBoundary(existing: int)
    ensures CalculateNewMarks(existing, 100 - existing) == Total(100)
    ensures CalculateNewMarks(existing, 101 - existing).ValueError?
  {
  }
}

=== FILE: invariants.dfy ===
/**
  Every handler keeps the store invariant `Models.Valid`, provided the
  random salts and tokens it is handed look like the ones `os.urandom` and
  `secrets.token_hex` produce; hence so does any sequence of requests.
 */
module Invariants {
  import opened Options
  import opened PyText
  import opened Helpers
  import opened Models
  import opened Views
  import opened Branches

  lemma SignupPreservesValid(H: Hasher, s: Store, verb: HttpMethod, usernameField: string, password: string, newSalt: string)
    requires Valid(s)
    requires IsHexToken(newSalt, 16)
    ensures Valid(Signup(H, s, verb, usernameField, password, newSalt).store)
  {
    var r := Signup(H, s, verb, usernameField, password, newSalt);
    if r.response.Redirect? {
      assert newSalt != "" by { assert |newSalt| == 32; }
      TeacherAddedValid(s, Teacher(Strip(usernameField), H(password + newSalt), newSalt));
    }
  }

  lemma TeacherAddedValid(s: Store, teacher: Teacher)
    requires Valid(s) && teacher.salt != ""
    requires UsernameFree(s.teachers, teacher.username)
    ensures Valid(s.(teachers := s.teachers[s.nextTeacherId := teacher], nextTeacherId := s.nextTeacherId + 1))
  {
  }

  lemma LoginPreservesValid(H: Hasher, s: Store, verb: HttpMethod, usernameField: string, password: string, newSalt: string, token: string)
    requires Valid(s)
    ensures Valid(Login(H, s, verb, usernameField, password, newSalt, token).store)
  {
  }

  lemma ForgotPasswordPreservesValid(H: Hasher, s: Store, verb: HttpMethod, usernameField: string, newPassword: string, confirmPassword: string, newSalt: string)
    requires Valid(s)
    requires IsHexToken(newSalt, 16)
    ensures Valid(ForgotPassword(H, s, verb, usernameField, newPassword, confirmPassword, newSalt).store)
  {
    var r := ForgotPassword(H, s, verb, usernameField, newPassword, confirmPassword, newSalt);
    if r.store != s {
      assert newSalt != "" by { assert |newSalt| == 32; }
      var id := Get(TeachersNamed(s.teachers, Strip(usernameField))).id;
      assert forall x :: x in s.teachers ==> r.store.teachers[x].username == s.teachers[x].username;
    }
  }

  lemma AddStudentPreservesValid(s: Store, verb: HttpMethod, cookie: Option<string>, nameField: string, subjectField: string, marksField: Option<string>)
    requires Valid(s)
    ensures Valid(AddStudent(s, verb, cookie, nameField, subjectField, marksField).store)
  {
    if verb != POST {
      assert AddStudent(s, verb, cookie, nameField, subjectField, marksField).store == s;
    } else if AddInputAccepted(s, cookie, nameField, subjectField, marksField) {
      AddDecides(s, cookie, nameField, subjectField, marksField);
      UpsertPreservesValid(s, CurrentTeacher(s, cookie).value, Strip(nameField), Strip(subjectField), PyInt(marksField.GetOr("0")).value);
    } else {
      AddRejectsBadInput(s, cookie, nameField, subjectField, marksField);
    }
  }

  lemma UpsertPreservesValid(s: Store, t: Id, name: string, subject: string, marks: int)
    requires Valid(s) && t in s.teachers
    ensures Valid(Upsert(s, t, name, subject, marks).store)
  {
    var named := StudentsNamed(s.students, name, subject);
    if named == {} {
      assert forall x :: x in s.students ==> !(s.students[x].name == name && s.students[x].subject == subject) by {
        forall x | x in s.students
          ensures !(s.students[x].name == name && s.students[x].subject == subject)
        {
          assert x !in named;
        }
      }
      UpsertCreatesRecord(s, t, name, subject, marks);
      CreatedStoreValid(s, t, Student(name, subject, marks));
    } else {
      var id := MinOf(named);
      if s.students[id].marks == marks {
        UpsertRejectsExactDuplicate(s, t, name, subject, marks, id);
      } else if s.students[id].marks + marks > 100 {
        UpsertOverflowCrashes(s, t, name, subject, marks, id);
      } else {
        UpsertMergesMarks(s, t, name, subject, marks, id);
        MergedStoreValid(s, t, id, s.students[id].marks + marks);
      }
    }
  }

  lemma CreatedStoreValid(s: Store, t: Id, created: Student)
    requires Valid(s) && t in s.teachers
    requires forall x :: x in s.students ==> !(s.students[x].name == created.name && s.students[x].subject == created.subject)
    ensures Valid(s.(students := s.students[s.nextStudentId := created],
                     log := s.log + [AuditEntry(t, s.nextStudentId, Create, None, Some(created.marks))],
                     nextStudentId := s.nextStudentId + 1))
  {
  }

  lemma MergedStoreValid(s: Store, t: Id, id: Id, total: int)
    requires Valid(s) && t in s.teachers && id in s.students
    ensures Valid(s.(students := s.students[id := s.students[id].(marks := total)],
                     log := s.log + [AuditEntry(t, id, Update, Some(s.students[id].marks), Some(total))]))
  {
  }

  lemma EditStudentPreservesValid(range: IntegerRange, s: Store, verb: HttpMethod, cookie: Option<string>, id: Id, form: EditForm)
    requires Valid(s)
    ensures Valid(EditStudent(range, s, verb, cookie, id, form).store)
  {
    var r := EditStudent(range, s, verb, cookie, id, form);
    if r.store != s {
      var updated := Student(Strip(form.name), Strip(form.subject), form.marks.value);
      EditedStoreValid(s, CurrentTeacher(s, cookie).value, id, updated);
    }
  }

  lemma EditedStoreValid(s: Store, t: Id, id: Id, updated: Student)
    requires Valid(s) && t in s.teachers && id in s.students
    requires forall other :: other in s.students && other != id ==>
      !(s.students[other].name == updated.name && s.students[other].subject == updated.subject)
    ensures Valid(s.(students := s.students[id := updated],
                     log := s.log + [AuditEntry(t, id, Edit, Some(s.students[id].marks), Some(updated.marks))]))
  {
  }

  lemma DeleteStudentPreservesValid(s: Store, verb: HttpMethod, cookie: Option<string>, id: Id)
    requires Valid(s)
    ensures Valid(DeleteStudent(s, verb, cookie, id).store)
  {
    var r := DeleteStudent(s, verb, cookie, id);
    if Succeeded(r.response) {
      forall i | 0 <= i < |r.store.log|
        ensures r.store.log[i].teacher in r.store.teachers && r.store.log[i].student in r.store.students
        ensures r.store.log[i].action != Delete && EntryShape(r.store.log[i])
      {
        assert r.store.log[i] in s.log;
      }
    }
  }

  /** One request to any of the views, with whatever the environment supplied. */
  datatype Request =
    | SignupRequest(verb: HttpMethod, username: string, password: string, newSalt: string)
    | LoginRequest(verb: HttpMethod, username: string, password: string, newSalt: string, token: string)
    | LogoutRequest(cookie: Option<string>)
    | ForgotPasswordRequest(verb: HttpMethod, username: string, newPassword: string, confirmPassword: string, newSalt: string)
    | StudentsPageRequest(cookie: Option<string>)
    | ListRequest(verb: HttpMethod, cookie: Option<string>)
    | AddRequest(verb: HttpMethod, cookie: Option<string>, name: string, subject: string, marks: Option<string>)
    | EditRequest(verb: HttpMethod, cookie: Option<string>, id: Id, form: EditForm)
    | DeleteRequest(verb: HttpMethod, cookie: Option<string>, id: Id)

  /** The salts and tokens have the shape `os.urandom(16).hex()` and `secrets.token_hex(16)` give them. */
  predicate WellSourced(req: Request) {
    match req
    case SignupRequest(_, _, _, newSalt) => IsHexToken(newSalt, 16)
    case LoginRequest(_, _, _, newSalt, token) => IsHexToken(newSalt, 16) && IsHexToken(token, 16)
    case ForgotPasswordRequest(_, _, _, _, newSalt) => IsHexToken(newSalt, 16)
    case _ => true
  }

  /** The URL dispatcher: the view each request reaches. */
  function Handle(H: Hasher, range: IntegerRange, s: Store, req: Request): Reply {
    match req
    case SignupRequest(verb, username, password, newSalt) => Signup(H, s, verb, username, password, newSalt)
    case LoginRequest(verb, username, password, newSalt, token) => Login(H, s, verb, username, password, newSalt, token)
    case LogoutRequest(cookie) => Logout(s, cookie)
    case ForgotPasswordRequest(verb, username, newPassword, confirmPassword, newSalt) =>
      ForgotPassword(H, s, verb, username, newPassword, confirmPassword, newSalt)
    case StudentsPageRequest(cookie) => StudentsPage(s, cookie)
    case ListRequest(verb, cookie) => ListStudents(s, verb, cookie)
    case AddRequest(verb, cookie, name, subject, marks) => AddStudent(s, verb, cookie, name, subject, marks)
    case EditRequest(verb, cookie, id, form) => EditStudent(range, s, verb, cookie, id, form)
    case DeleteRequest(verb, cookie, id) => DeleteStudent(s, verb, cookie, id)
  }

  lemma HandlePreservesValid(H: Hasher, range: IntegerRange, s: Store, req: Request)
    requires Valid(s) && WellSourced(req)
    ensures Valid(Handle(H, range, s, req).store)
  {
    match req
    case SignupRequest(verb, username, password, newSalt) =>
      SignupPreservesValid(H, s, verb, username, password, newSalt);
    case LoginRequest(verb, username, password, newSalt, token) =>
      LoginPreservesValid(H, s, verb, username, password, newSalt, token);
    case LogoutRequest(cookie) =>
    case ForgotPasswordRequest(verb, username, newPassword, confirmPassword, newSalt) =>
      ForgotPasswordPreservesValid(H, s, verb, username, newPassword, confirmPassword, newSalt);
    case StudentsPageRequest(cookie) =>
    case ListRequest(verb, cookie) =>
    case AddRequest(verb, cookie, name, subject, marks) =>
      AddStudentPreservesValid(s, verb, cookie, name, subject, marks);
    case EditRequest(verb, cookie, id, form) =>
      EditStudentPreservesValid(range, s, verb, cookie, id, form);
    case DeleteRequest(verb, cookie, id) =>
      DeleteStudentPreservesValid(s, verb, cookie, id);
  }

  /** The store after the requests have been served one after another. */
  function Run(H: Hasher, range: IntegerRange, s: Store, reqs: seq<Request>): Store
    decreases |reqs|
  {
    if reqs == [] then s else Run(H, range, Handle(H, range, s, reqs[0]).store, reqs[1..])
  }

  lemma {:induction false} RunPreservesValid(H: Hasher, range: IntegerRange, s: Store, reqs: seq<Request>)
    requires Valid(s)
    requires forall i :: 0 <= i < |reqs| ==> WellSourced(reqs[i])
    ensures Valid(Run(H, range, s, reqs))
    decreases |reqs|
  {
    if reqs != [] {
      HandlePreservesValid(H, range, s, reqs[0]);
      RunPreservesValid(H, range, Handle(H, range, s, reqs[0]).store, reqs[1..]);
    }
  }

  /**
    Whatever requests a fresh deployment serves, its audit log never holds a
    `delete` row and every row it holds names a student that still exists.
   */
  lemma NoDeleteRowSurvives(H: Hasher, range: IntegerRange, reqs: seq<Request>)
    requires forall i :: 0 <= i < |reqs| ==> WellSourced(reqs[i])
    ensures forall e :: e in Run(H, range, Empty, reqs).log ==> e.action != Delete && e.student in Run(H, range, Empty, reqs).students
  {
    EmptyIsValid();
    RunPreservesValid(H, range, Empty, reqs);
  }
}

=== FILE: models.dfy ===
/**
  The three tables (teachers, students, audit_log), the in-process session
  dictionary, the constraints the schema declares, and the queries and
  cascading deletes the views perform on them.
 */
module Models {
  import opened Options

  /** An `AutoField` primary key. */
  type Id = nat

  datatype Teacher = Teacher(username: string, passwordHash: string, salt: string)

  /** `marks` is a plain `IntegerField`: the schema itself puts no range on it. */
  datatype Student = Student(name: string, subject: string, marks: int)

  datatype Action = Create | Update | Edit | Delete

  /** One `AuditLog` row; both marks columns are nullable. */
  datatype AuditEntry = AuditEntry(teacher: Id, student: Id, action: Action, oldMarks: Option<int>, newMarks: Option<int>)

  /**
    The whole persistent state. `log` is the audit table in insertion
    (primary-key) order; `sessions` is the module-level `SESSION_STORE`
    dictionary from token to teacher id; the two counters are the next
    values the `AutoField` sequences hand out.
   */
  datatype Store = Store(
    teachers: map<Id, Teacher>,
    students: map<Id, Student>,
    log: seq<AuditEntry>,
    sessions: map<string, Id>,
    nextTeacherId: Id,
    nextStudentId: Id)

  /** A freshly migrated database and a freshly started process. */
  const Empty := Store(map[], map[], [], map[], 1, 1)

  /** `unique=True` on `Teacher.username`. */
  predicate UniqueUsernames(teachers: map<Id, Teacher>) {
    forall a, b :: a in teachers && b in teachers && teachers[a].username == teachers[b].username ==> a == b
  }

  /** `unique_together = ('name', 'subject')` on `Student`. */
  predicate UniqueNameSubject(students: map<Id, Student>) {
    forall a, b ::
      (a in students && b in students &&
       students[a].name == students[b].name && students[a].subject == students[b].subject) ==> a == b
  }

  /** Which marks column each action fills in. */
  predicate EntryShape(e: AuditEntry) {
    match e.action
    case Create => e.oldMarks.None? && e.newMarks.Some?
    case Update => e.oldMarks.Some? && e.newMarks.Some?
    case Edit => e.oldMarks.Some? && e.newMarks.Some?
    case Delete => e.oldMarks.Some? && e.newMarks.None?
  }

  /**
    The invariant every reachable store keeps: keys below their sequence
    counters, the two uniqueness constraints, salts that are never empty,
    audit rows whose foreign keys resolve (CASCADE leaves no dangling row),
    and, as a consequence of that cascade, no `delete` row at all.
   */
  predicate Valid(s: Store) {
    && (forall id :: id in s.teachers ==> id < s.nextTeacherId)
    && (forall id :: id in s.students ==> id < s.nextStudentId)
    && UniqueUsernames(s.teachers)
    && UniqueNameSubject(s.students)
    && (forall id :: id in s.teachers ==> s.teachers[id].salt != "")
    && (forall i :: 0 <= i < |s.log| ==>
          && s.log[i].teacher in s.teachers
          && s.log[i].student in s.students
          && s.log[i].action != Delete
          && EntryShape(s.log[i]))
  }

  lemma EmptyIsValid()
    ensures Valid(Empty)
  {
  }

  // ---------------------------------------------------------------------
  // Queries
  // ---------------------------------------------------------------------

  /** `m` is the smallest id of `ids`. */
  predicate IsLeast(m: Id, ids: set<Id>) {
    m in ids && forall x :: x in ids ==> m <= x
  }

  lemma {:induction false} MinExists(ids: set<Id>)
    requires ids != {}
    ensures exists m :: IsLeast(m, ids)
    decreases |ids|
  {
    var y :| y in ids;
    var rest := ids - {y};
    if rest == {} {
      assert ids == {y};
      assert IsLeast(y, ids);
    } else {
      assert |rest| < |ids|;
      MinExists(rest);
      var m :| IsLeast(m, rest);
      var least := if y < m then y else m;
      forall x | x in ids
        ensures least <= x
      {
        if x != y {
          assert x in rest;
        }
      }
      assert IsLeast(least, ids);
    }
  }

  /** The smallest id in a non-empty set. */
  function MinOf(ids: set<Id>): (m: Id)
    requires ids != {}
    ensures m in ids
    ensures forall x :: x in ids ==> m <= x
  {
    MinExists(ids);
    var m :| IsLeast(m, ids);
    m
  }

  /** `queryset.first()`: with no explicit ordering Django orders by primary key. */
  function First(ids: set<Id>): (r: Option<Id>)
    ensures r.None? <==> ids == {}
    ensures r.Some? ==> r.value in ids && forall x :: x in ids ==> r.value <= x
  {
    if ids == {} then None else Some(MinOf(ids))
  }

  /** The three ways `Model.objects.get(...)` can end. */
  datatype Lookup = NoMatch | OneMatch(id: Id) | ManyMatches

  /**
    `Model.objects.get(...)`: the single matching row, `DoesNotExist` for
    none, `MultipleObjectsReturned` for more than one.
   */
  function Get(ids: set<Id>): (r: Lookup)
    ensures r.NoMatch? <==> ids == {}
    ensures r.OneMatch? <==> |ids| == 1
    ensures r.OneMatch? ==> ids == {r.id}
  {
    if ids == {} then NoMatch
    else if |ids| == 1 then
      var m := MinOf(ids);
      assert ids == {m} by {
        assert |ids - {m}| == |ids| - |{m}| == 0;
      }
      OneMatch(m)
    else ManyMatches
  }

  /** `Teacher.objects.filter(username=username)`. */
  function TeachersNamed(teachers: map<Id, Teacher>, username: string): set<Id> {
    set id | id in teachers && teachers[id].username == username
  }

  /** `Student.objects.filter(name=name, subject=subject)`. */
  function StudentsNamed(students: map<Id, Student>, name: string, subject: string): set<Id> {
    set id | id in students && students[id].name == name && students[id].subject == subject
  }

  /** `Student.objects.filter(name=name, subject=subject, marks=marks)`. */
  function StudentsExactly(students: map<Id, Student>, name: string, subject: string, marks: int): set<Id> {
    set id | id in students && students[id] == Student(name, subject, marks)
  }

  /** No teacher has the username yet. */
  predicate UsernameFree(teachers: map<Id, Teacher>, username: string) {
    forall id :: id in teachers ==> teachers[id].username != username
  }

  /** The filter comes back empty exactly when the username is free. */
  lemma TeachersNamedEmpty(teachers: map<Id, Teacher>, username: string)
    ensures TeachersNamed(teachers, username) == {} <==> UsernameFree(teachers, username)
  {
    if !UsernameFree(teachers, username) {
      var id :| id in teachers && teachers[id].username == username;
      assert id in TeachersNamed(teachers, username);
    }
  }

  /** A teacher inserted under a free username is the only one the filter finds. */
  lemma InsertedTeacherNamed(teachers: map<Id, Teacher>, id: Id, teacher: Teacher)
    requires id !in teachers && UsernameFree(teachers, teacher.username)
    ensures TeachersNamed(teachers[id := teacher], teacher.username) == {id}
  {
  }

  /** Under the username constraint a name matches at most one teacher. */
  lemma UniqueUsernameLookup(teachers: map<Id, Teacher>, username: string)
    requires UniqueUsernames(teachers)
    ensures !Get(TeachersNamed(teachers, username)).ManyMatches?
  {
    var ids := TeachersNamed(teachers, username);
    if ids != {} {
      var m := MinOf(ids);
      assert ids == {m};
    }
  }

  /** `ORDER BY id`: the ids of a set, strictly ascending. */
  function SortedIds(ids: set<Id>): (r: seq<Id>)
    ensures |r| == |ids|
    ensures forall i :: 0 <= i < |r| ==> r[i] in ids
    ensures forall x :: x in ids ==> x in r
    ensures forall i, j :: 0 <= i < j < |r| ==> r[i] < r[j]
    decreases |ids|
  {
    if ids == {} then []
    else
      var m := MinOf(ids);
      var rest := SortedIds(ids - {m});
      PrependLeast(m, rest);
      [m] + rest
  }

  /** Putting an id below every element in front of an ascending sequence keeps it ascending. */
  lemma PrependLeast(m: Id, rest: seq<Id>)
    requires forall i :: 0 <= i < |rest| ==> m < rest[i]
    requires forall i, j :: 0 <= i < j < |rest| ==> rest[i] < rest[j]
    ensures forall i, j :: 0 <= i < j < |[m] + rest| ==> ([m] + rest)[i] < ([m] + rest)[j]
  {
    var r := [m] + rest;
    forall i, j | 0 <= i < j < |r|
      ensures r[i] < r[j]
    {
      if i == 0 {
        assert r[j] == rest[j - 1];
      } else {
        assert r[i] == rest[i - 1] && r[j] == rest[j - 1];
      }
    }
  }

  // ---------------------------------------------------------------------
  // Deletes with ON DELETE CASCADE
  // ---------------------------------------------------------------------

  /** The audit rows that survive once every row satisfying `gone` is deleted. */
  function Surviving(log: seq<AuditEntry>, gone: AuditEntry -> bool): (r: seq<AuditEntry>)
    ensures |r| <= |log|
    ensures forall e :: e in r <==> e in log && !gone(e)
  {
    if log == [] then []
    else
      var rest := Surviving(log[1..], gone);
      if gone(log[0]) then rest else [log[0]] + rest
  }

  /** Deleting rows never reorders the ones that stay. */
  lemma {:induction false} SurvivingAppend(log: seq<AuditEntry>, e: AuditEntry, gone: AuditEntry -> bool)
    ensures Surviving(log + [e], gone) == Surviving(log, gone) + (if gone(e) then [] else [e])
  {
    if log == [] {
      assert log + [e] == [e];
    } else {
      assert (log + [e])[1..] == log[1..] + [e];
      SurvivingAppend(log[1..], e, gone);
    }
  }

  /** Deleting rows that match nothing leaves the log as it is. */
  lemma {:induction false} SurvivingUntouched(log: seq<AuditEntry>, gone: AuditEntry -> bool)
    requires forall i :: 0 <= i < |log| ==> !gone(log[i])
    ensures Surviving(log, gone) == log
  {
    if log != [] {
      SurvivingUntouched(log[1..], gone);
      assert log == [log[0]] + log[1..];
    }
  }

  /** The two foreign keys of an audit row. */
  datatype Column = StudentColumn | TeacherColumn

  function Ref(e: AuditEntry, c: Column): Id {
    match c
    case StudentColumn => e.student
    case TeacherColumn => e.teacher
  }

  /** The audit rows whose column `c` points at `x`, in log order. */
  function RowsOf(log: seq<AuditEntry>, c: Column, x: Id): (r: seq<AuditEntry>)
    ensures forall e :: e in r <==> e in log && Ref(e, c) == x
  {
    if log == [] then []
    else (if Ref(log[0], c) == x then [log[0]] else []) + RowsOf(log[1..], c, x)
  }

  /**
    Deleting the rows that point at `id` through column `c` leaves the rows
    about every other `x` exactly as they were, order and repeats included,
    and removes nothing but the rows about `id`.
   */
  lemma SurvivingKeepsRows(log: seq<AuditEntry>, gone: AuditEntry -> bool, c: Column, id: Id)
    requires forall e :: gone(e) <==> Ref(e, c) == id
    ensures forall x :: x != id ==> RowsOf(Surviving(log, gone), c, x) == RowsOf(log, c, x)
    ensures multiset(Surviving(log, gone)) + multiset(RowsOf(log, c, id)) == multiset(log)
  {
    forall x | x != id
      ensures RowsOf(Surviving(log, gone), c, x) == RowsOf(log, c, x)
    {
      SurvivingKeepsRowsOf(log, gone, c, id, x);
    }
    SurvivingDropsRows(log, gone, c, id);
  }

  lemma {:induction false} SurvivingKeepsRowsOf(log: seq<AuditEntry>, gone: AuditEntry -> bool, c: Column, id: Id, x: Id)
    requires forall e :: gone(e) <==> Ref(e, c) == id
    requires x != id
    ensures RowsOf(Surviving(log, gone), c, x) == RowsOf(log, c, x)
  {
    if log != [] {
      var rest := Surviving(log[1..], gone);
      SurvivingKeepsRowsOf(log[1..], gone, c, id, x);
      if gone(log[0]) {
        assert Ref(log[0], c) != x;
      } else {
        var r := [log[0]] + rest;
        assert r[0] == log[0] && r[1..] == rest;
      }
    }
  }

  lemma {:induction false} SurvivingDropsRows(log: seq<AuditEntry>, gone: AuditEntry -> bool, c: Column, id: Id)
    requires forall e :: gone(e) <==> Ref(e, c) == id
    ensures multiset(Surviving(log, gone)) + multiset(RowsOf(log, c, id)) == multiset(log)
  {
    if log != [] {
      var h, t := log[0], log[1..];
      SurvivingDropsRows(t, gone, c, id);
      assert log == [h] + t;
      if gone(h) {
        assert Surviving(log, gone) == Surviving(t, gone);
        assert RowsOf(log, c, id) == [h] + RowsOf(t, c, id);
        SplitCons(h, t, RowsOf(t, c, id), Surviving(t, gone));
      } else {
        assert Surviving(log, gone) == [h] + Surviving(t, gone);
        assert RowsOf(log, c, id) == RowsOf(t, c, id);
        SplitCons(h, t, Surviving(t, gone), RowsOf(t, c, id));
      }
    }
  }

  /** A split of `t` into two parts extends to `[h] + t` by giving `h` to the first part. */
  lemma SplitCons<T>(h: T, t: seq<T>, a: seq<T>, b: seq<T>)
    requires multiset(a) + multiset(b) == multiset(t)
    ensures multiset([h] + a) + multiset(b) == multiset([h] + t)
    ensures multiset(b) + multiset([h] + a) == multiset([h] + t)
  {
  }

  /**
    `student.delete()`: the row goes, and `AuditLog.student` being
    `on_delete=CASCADE`, so does every audit row that references it.
   */
  function DeleteStudentRow(s: Store, id: Id): (r: Store)
    ensures r.students == s.students - {id}
    ensures forall e :: e in r.log <==> e in s.log && e.student != id
    ensures forall x :: x != id ==> RowsOf(r.log, StudentColumn, x) == RowsOf(s.log, StudentColumn, x)
    ensures multiset(r.log) + multiset(RowsOf(s.log, StudentColumn, id)) == multiset(s.log)
    ensures r.teachers == s.teachers && r.sessions == s.sessions
    ensures r.nextTeacherId == s.nextTeacherId && r.nextStudentId == s.nextStudentId
  {
    var gone := (e: AuditEntry) => e.student == id;
    SurvivingKeepsRows(s.log, gone, StudentColumn, id);
    s.(students := s.students - {id}, log := Surviving(s.log, gone))
  }

  /**
    A row appended just before the delete stays at the end of the log unless
    it is about the student, in which case it goes and leaves no trace.
   */
  lemma LoggedRowVanishes(s: Store, e: AuditEntry, id: Id)
    ensures DeleteStudentRow(s.(log := s.log + [e]), id).log == DeleteStudentRow(s, id).log + (if e.student == id then [] else [e])
    ensures e.student == id ==> DeleteStudentRow(s.(log := s.log + [e]), id) == DeleteStudentRow(s, id)
  {
    SurvivingAppend(s.log, e, (e: AuditEntry) => e.student == id);
  }

  /**
    `teacher.delete()`: no view performs it, but the schema fixes what it
    would do. `AuditLog.teacher` is `on_delete=CASCADE`; sessions are an
    in-memory dictionary the database knows nothing about, so they stay.
   */
  function DeleteTeacherRow(s: Store, id: Id): (r: Store)
    ensures r.teachers == s.teachers - {id}
    ensures forall e :: e in r.log <==> e in s.log && e.teacher != id
    ensures forall x :: x != id ==> RowsOf(r.log, TeacherColumn, x) == RowsOf(s.log, TeacherColumn, x)
    ensures multiset(r.log) + multiset(RowsOf(s.log, TeacherColumn, id)) == multiset(s.log)
    ensures r.students == s.students && r.sessions == s.sessions
    ensures r.nextTeacherId == s.nextTeacherId && r.nextStudentId == s.nextStudentId
  {
    var gone := (e: AuditEntry) => e.teacher == id;
    SurvivingKeepsRows(s.log, gone, TeacherColumn, id);
    s.(teachers := s.teachers - {id}, log := Surviving(s.log, gone))
  }

  lemma DeleteTeacherRowPreservesValid(s: Store, id: Id)
    requires Valid(s)
    ensures Valid(DeleteTeacherRow(s, id))
  {
    var r := DeleteTeacherRow(s, id);
    RowsWithoutTeacher(s, id, r.log);
  }

  /** Rows taken from a valid log, none of them by teacher `id`, resolve once that teacher is gone. */
  lemma RowsWithoutTeacher(s: Store, id: Id, log: seq<AuditEntry>)
    requires Valid(s)
    requires forall e :: e in log ==> e in s.log && e.teacher != id
    ensures forall i :: 0 <= i < |log| ==>
      && log[i].teacher in s.teachers - {id} && log[i].student in s.students
      && log[i].action != Delete && EntryShape(log[i])
  {
    forall i | 0 <= i < |log|
      ensures log[i].teacher in s.teachers - {id} && log[i].student in s.students
      ensures log[i].action != Delete && EntryShape(log[i])
    {
      assert log[i] in s.log;
    }
  }
}

=== FILE: options.dfy ===
/** The optional value used throughout the model: Python's `None` or a value. */
module Options {

  datatype Option<+T> = None | Some(value: T) {

    /** The value, or `default` when there is none (Python's `dict.get(key, default)`). */
    function GetOr(default: T): T {
      match this
      case Some(v) => v
      case None => default
    }
  }
}

=== FILE: pytext.dfy ===
/**
  The two pieces of Python's text handling the views rely on: `str.strip()`,
  applied to every username, name and subject read from a form, and `int(s)`,
  which turns the submitted marks into an integer or raises `ValueError`.
 */
module PyText {
  import opened Options

  /** Python's `str.isspace()`: the characters `str.strip()` removes. */
  predicate IsSpace(c: char) {
    var k := c as int;
    || (9 <= k <= 13) || (28 <= k <= 32)
    || k == 0x85 || k == 0xA0 || k == 0x1680
    || (0x2000 <= k <= 0x200A)
    || k == 0x2028 || k == 0x2029 || k == 0x202F || k == 0x205F || k == 0x3000
  }

  /**
    The characters `int()` skips around a number. Non-ASCII whitespace is first
    turned into a plain space, but the ASCII characters are kept as they are and
    only the C-locale blanks (tab, line feed, vertical tab, form feed, carriage
    return, space) are skipped: the separators U+001C..U+001F, which
    `str.isspace()` accepts, make `int()` fail.
   */
  predicate IsIntSpace(c: char) {
    IsSpace(c) && !(28 <= c as int <= 31)
  }

  /** Which of the two notions of whitespace a trim removes. */
  datatype Padding = StrSpace | IntSpace

  predicate Pads(p: Padding, c: char) {
    match p
    case StrSpace => IsSpace(c)
    case IntSpace => IsIntSpace(c)
  }

  predicate AllPad(p: Padding, s: string) {
    forall i :: 0 <= i < |s| ==> Pads(p, s[i])
  }

  predicate AllSpace(s: string) {
    AllPad(StrSpace, s)
  }

  /** `s` neither starts nor ends with padding of kind `p`. */
  predicate IsTrimmed(p: Padding, s: string) {
    |s| == 0 || (!Pads(p, s[0]) && !Pads(p, s[|s| - 1]))
  }

  /** `s` has nothing for `strip()` to remove. */
  predicate IsStripped(s: string) {
    IsTrimmed(StrSpace, s)
  }

  function TrimEnd(p: Padding, s: string): (r: string)
    ensures |r| <= |s| && r == s[..|r|]
    ensures |r| == 0 || !Pads(p, r[|r| - 1])
    ensures AllPad(p, s[|r|..])
  {
    if |s| > 0 && Pads(p, s[|s| - 1]) then
      var r := TrimEnd(p, s[..|s| - 1]);
      assert s[|r|..] == s[..|s| - 1][|r|..] + [s[|s| - 1]];
      r
    else s
  }

  /** How many characters of padding `s` starts with: the longest all-padding prefix. */
  function LeadingPad(p: Padding, s: string): (n: nat)
    ensures n <= |s| && AllPad(p, s[..n]) && (n == |s| || !Pads(p, s[n]))
  {
    if |s| > 0 && Pads(p, s[0]) then
      var n := 1 + LeadingPad(p, s[1..]);
      assert s[..n] == [s[0]] + s[1..][..n - 1];
      n
    else 0
  }

  /** `s` with the padding of kind `p` removed from both ends. */
  function Trim(p: Padding, s: string): (r: string)
    ensures IsTrimmed(p, r)
    ensures |r| <= |s|
    ensures |r| <= |s| - LeadingPad(p, s)
    ensures r == s[LeadingPad(p, s)..][..|r|] && AllPad(p, s[LeadingPad(p, s)..][|r|..])
    ensures r == [] <==> AllPad(p, s)
    ensures IsTrimmed(p, s) ==> r == s
  {
    var i := LeadingPad(p, s);
    var r := TrimEnd(p, s[i..]);
    TrimFacts(p, s, i, r);
    r
  }

  /**
    What is left once the leading padding (`i` characters) and then the
    trailing padding are cut off: a slice of `s` with padding only outside it,
    empty exactly when `s` is all padding.
   */
  lemma TrimFacts(p: Padding, s: string, i: nat, r: string)
    requires i <= |s| && AllPad(p, s[..i]) && (i == |s| || !Pads(p, s[i]))
    requires |r| <= |s| - i && r == s[i..][..|r|] && (|r| == 0 || !Pads(p, r[|r| - 1])) && AllPad(p, s[i..][|r|..])
    ensures IsTrimmed(p, r)
    ensures |r| <= |s|
    ensures r == [] <==> AllPad(p, s)
    ensures IsTrimmed(p, s) ==> r == s
  {
    if |r| > 0 {
      assert r[0] == s[i];
    }
    if r == [] {
      PadConcat(p, s[..i], s[i..]);
      assert s == s[..i] + s[i..];
    }
    if i > 0 {
      assert s[..i][0] == s[0];
    }
    if |r| < |s| - i {
      assert s[i..][|r|..][|s| - i - |r| - 1] == s[|s| - 1];
    }
  }

  lemma PadConcat(p: Padding, a: string, b: string)
    requires AllPad(p, a) && AllPad(p, b)
    ensures AllPad(p, a + b)
  {
  }

  /** `str.strip()` with no argument. */
  function Strip(s: string): (r: string)
    ensures IsStripped(r)
    ensures |r| <= |s|
    ensures |r| <= |s| - LeadingPad(StrSpace, s)
    ensures r == s[LeadingPad(StrSpace, s)..][..|r|] && AllSpace(s[LeadingPad(StrSpace, s)..][|r|..])
    ensures r == [] <==> AllSpace(s)
    ensures IsStripped(s) ==> r == s
  {
    Trim(StrSpace, s)
  }

  /** Stripping twice is stripping once. */
  lemma StripIdempotent(s: string)
    ensures Strip(Strip(s)) == Strip(s)
  {
  }

  predicate IsDigit(c: char) {
    '0' <= c <= '9'
  }

  function DigitValue(c: char): (d: nat)
    ensures d < 10
  {
    if IsDigit(c) then (c as int) - ('0' as int) else 0
  }

  /**
    The body `int()` accepts after an optional sign: ASCII digits, with a
    single underscore allowed only between two digits.
   */
  predicate IsDigitRun(d: string) {
    && |d| > 0
    && IsDigit(d[0])
    && IsDigit(d[|d| - 1])
    && (forall i :: 0 <= i < |d| ==> IsDigit(d[i]) || d[i] == '_')
    && (forall i :: 0 <= i < |d| ==> !("__" <= d[i..]))
  }

  /** The base-10 value of a digit run; underscores carry no value. */
  function DigitsValue(d: string): nat {
    if |d| == 0 then 0
    else if d[|d| - 1] == '_' then DigitsValue(d[..|d| - 1])
    else 10 * DigitsValue(d[..|d| - 1]) + DigitValue(d[|d| - 1])
  }

  /**
    The most digits `int()` reads from a decimal string: CPython's default
    `sys.int_info.default_max_str_digits`. Longer text raises `ValueError`.
   */
  const MaxStrDigits := 4300

  /** The digits of a run, leading zeros included; underscores do not count. */
  function DigitCount(d: string): (n: nat)
    ensures n <= |d|
    ensures (forall i :: 0 <= i < |d| ==> IsDigit(d[i])) ==> n == |d|
  {
    if |d| == 0 then 0
    else DigitCount(d[..|d| - 1]) + (if IsDigit(d[|d| - 1]) then 1 else 0)
  }

  /** A digit run `int()` accepts: well formed and within the digit limit. */
  predicate IsReadable(d: string) {
    IsDigitRun(d) && DigitCount(d) <= MaxStrDigits
  }

  /** What `int()` makes of text whose surrounding blanks are already gone. */
  function ReadInt(t: string): (r: Option<int>)
    ensures t == [] ==> r == None
  {
    if |t| > 0 && (t[0] == '+' || t[0] == '-') then
      if IsReadable(t[1..]) then
        var v: int := DigitsValue(t[1..]);
        Some(if t[0] == '-' then -v else v)
      else None
    else if IsReadable(t) then Some(DigitsValue(t))
    else None
  }

  /**
    `int(s)` for a `str` argument and the default base 10: surrounding
    blanks are ignored, one optional sign, then a digit run of at most
    `MaxStrDigits` digits. `None` is the `ValueError` Python raises for
    anything else.
   */
  function PyInt(s: string): (r: Option<int>)
    ensures AllPad(IntSpace, s) ==> r == None
  {
    ReadInt(Trim(IntSpace, s))
  }

  function DigitChar(d: nat): (c: char)
    requires d < 10
    ensures IsDigit(c) && DigitValue(c) == d
  {
    (('0' as int) + d) as char
  }

  function Pow10(k: nat): (r: nat)
    ensures r > 0
  {
    if k == 0 then 1 else 10 * Pow10(k - 1)
  }

  /** The decimal text of a natural number: its digits, most significant first, with no leading zero. */
  function NatDecimal(n: nat): (r: string)
    ensures |r| > 0
    ensures forall i :: 0 <= i < |r| ==> IsDigit(r[i])
    ensures DigitsValue(r) == n
    ensures n < Pow10(|r|) && (|r| == 1 || Pow10(|r| - 1) <= n)
    ensures r[0] == '0' ==> n == 0
  {
    if n < 10 then [DigitChar(n)]
    else
      var prefix := NatDecimal(n / 10);
      var r := prefix + [DigitChar(n % 10)];
      assert r[..|r| - 1] == prefix && r[0] == prefix[0];
      r
  }

  /** How many digits the decimal text of `n` has, the sign not counted. */
  function DecimalDigits(n: int): nat {
    |NatDecimal(if n < 0 then -n else n)|
  }

  /** A number below `10^k` takes at most `k` digits. */
  lemma {:induction false} FewDigits(n: nat, k: nat)
    requires 0 < k && n < Pow10(k)
    ensures DecimalDigits(n) <= k
  {
    if n >= 10 {
      assert k > 1;
      FewDigits(n / 10, k - 1);
    }
  }

  /**
    The decimal text of any integer, which is how the browser submits marks.
    Up to `MaxStrDigits` digits it is what `str(n)` writes; above that limit
    `str(n)` itself raises, and this is text `int()` refuses.
   */
  function Decimal(n: int): (r: string)
    ensures |r| > 0 && IsStripped(r) && IsTrimmed(IntSpace, r)
  {
    if n < 0 then "-" + NatDecimal(-n) else NatDecimal(n)
  }

  /**
    `int()` reads a plain run of digits, signed or not, as its base-10 value
    when it has at most `MaxStrDigits` digits, and raises otherwise.
   */
  lemma ReadIntDigits(d: string)
    requires |d| > 0 && forall i :: 0 <= i < |d| ==> IsDigit(d[i])
    ensures ReadInt(d) == if |d| <= MaxStrDigits then Some(DigitsValue(d)) else None
    ensures ReadInt("-" + d) == if |d| <= MaxStrDigits then Some(-(DigitsValue(d) as int)) else None
  {
    DigitsAreRun(d);
    ReadUnsigned(d);
    ReadNegative(d);
  }

  lemma ReadUnsigned(d: string)
    requires IsDigitRun(d)
    ensures ReadInt(d) == if IsReadable(d) then Some(DigitsValue(d)) else None
  {
    assert d[0] != '+' && d[0] != '-';
  }

  lemma ReadNegative(d: string)
    requires IsDigitRun(d)
    ensures ReadInt("-" + d) == if IsReadable(d) then Some(-(DigitsValue(d) as int)) else None
  {
    var t := "-" + d;
    assert t[0] == '-' && t[1..] == d;
  }

  lemma DigitsAreRun(d: string)
    requires |d| > 0 && forall i :: 0 <= i < |d| ==> IsDigit(d[i])
    ensures IsDigitRun(d)
  {
    forall i | 0 <= i < |d|
      ensures !("__" <= d[i..])
    {
      assert d[i..][0] == d[i];
    }
  }

  /**
    `int()` reads back the decimal text of every integer up to the digit
    limit; beyond it, it raises.
   */
  lemma PyIntDecimal(n: int)
    ensures PyInt(Decimal(n)) == if DecimalDigits(n) <= MaxStrDigits then Some(n) else None
  {
    var d := NatDecimal(if n < 0 then -n else n);
    assert Trim(IntSpace, Decimal(n)) == Decimal(n);
    ReadIntDigits(d);
    if n < 0 {
      assert Decimal(n) == "-" + d;
    } else {
      assert Decimal(n) == d;
    }
  }

  /** Marks as the form allows them, 0..100, are always read back. */
  lemma PyIntSmallDecimal(n: int)
    requires -1000 < n < 1000
    ensures PyInt(Decimal(n)) == Some(n)
  {
    var m: nat := if n < 0 then -n else n;
    assert Pow10(3) == 1000;
    FewDigits(m, 3);
    assert DecimalDigits(n) == DecimalDigits(m);
    PyIntDecimal(n);
  }

  /** Surrounding blanks never change what `int()` reads. */
  lemma PyIntIgnoresPadding(n: int, pad: string)
    requires AllPad(IntSpace, pad)
    ensures PyInt(pad + Decimal(n) + pad) == PyInt(Decimal(n))
    ensures DecimalDigits(n) <= MaxStrDigits ==> PyInt(pad + Decimal(n) + pad) == Some(n)
  {
    PyIntDecimal(n);
    TrimPadded(IntSpace, pad, Decimal(n));
  }

  /**
    More than `MaxStrDigits` digits make `int()` raise, whatever their value:
    leading zeros count.
   */
  lemma PyIntRejectsLongRun(zeros: nat, n: nat)
    requires zeros + DecimalDigits(n) > MaxStrDigits
    ensures PyInt(seq(zeros, _ => '0') + Decimal(n)) == None
  {
    var z: string := seq(zeros, _ => '0');
    var e := NatDecimal(n);
    assert Decimal(n) == e;
    var d := z + e;
    forall i | 0 <= i < |d|
      ensures IsDigit(d[i])
    {
      if i < zeros {
        assert d[i] == z[i];
      } else {
        assert d[i] == e[i - zeros];
      }
    }
    assert IsTrimmed(IntSpace, d) by {
      assert d[|d| - 1] == e[|e| - 1];
    }
    ReadIntDigits(d);
  }

  /**
    `int()` does not skip every character `strip()` removes: with one of the
    separators U+001C..U+001F in front, the decimal text of `n` strips back
    to itself, yet `int()` of the text as submitted raises `ValueError`.
   */
  lemma PyIntRejectsSeparator(c: char, n: int)
    requires 28 <= c as int <= 31
    ensures Strip([c] + Decimal(n)) == Decimal(n)
    ensures PyInt([c] + Decimal(n)) == None
  {
    var d := Decimal(n);
    var s := [c] + d;
    TrimLeading(StrSpace, [c], d);
    assert s[0] == c && s[|s| - 1] == d[|d| - 1];
    assert IsTrimmed(IntSpace, s);
    ReadIntNeedsDigit(s);
  }

  /**
    `int()` raises on any character of the text it reads, between the first
    and the last non-blank one, that is neither a digit nor an underscore,
    unless it is a sign in first place: "1.5", "4O", "abc" and "1 2" are
    all refused. `s[j]` and `s[k]` are non-blank characters around `s[i]`.
   */
  lemma PyIntRejectsStrayChar(s: string, j: nat, i: nat, k: nat)
    requires j <= i <= k < |s|
    requires !IsIntSpace(s[j]) && !IsIntSpace(s[k])
    requires !IsDigit(s[i]) && s[i] != '_'
    requires j == i ==> s[i] != '+' && s[i] != '-'
    ensures PyInt(s) == None
  {
    var t := Trim(IntSpace, s);
    var n := LeadingPad(IntSpace, s);
    forall q | 0 <= q < n
      ensures IsIntSpace(s[q])
    {
      assert s[..n][q] == s[q];
    }
    forall q | n + |t| <= q < |s|
      ensures IsIntSpace(s[q])
    {
      assert s[n..][|t|..][q - n - |t|] == s[q];
    }
    assert t[i - n] == s[i];
    ReadIntRefuses(t, i - n);
  }

  /** A character other than a digit or an underscore, and not a leading sign, makes the text no integer. */
  lemma ReadIntRefuses(t: string, m: nat)
    requires m < |t| && !IsDigit(t[m]) && t[m] != '_'
    requires m == 0 ==> t[m] != '+' && t[m] != '-'
    ensures ReadInt(t) == None
  {
    if t[0] == '+' || t[0] == '-' {
      assert t[1..][m - 1] == t[m];
    }
  }

  /**
    Text written the way `str()` writes an integer: an optional minus, then
    digits only, with no leading zero and no "-0".
   */
  predicate IsCanonical(t: string) {
    var body := if |t| > 0 && t[0] == '-' then t[1..] else t;
    && |body| > 0
    && (forall i :: 0 <= i < |body| ==> IsDigit(body[i]))
    && (body[0] == '0' ==> t == "0")
  }

  /** The decimal text of every integer is canonical. */
  lemma DecimalIsCanonical(n: int)
    ensures IsCanonical(Decimal(n))
  {
    if n < 0 {
      assert Decimal(n)[1..] == NatDecimal(-n);
    } else if n == 0 {
      assert Decimal(n) == "0";
    }
  }

  /**
    The converse of `PyIntDecimal`: when `int()` reads a number from text
    whose non-blank part is canonical, that part is the number's decimal
    text. Together the two make canonical text and integers correspond one
    to one.
   */
  lemma PyIntCanonical(s: string, n: int)
    requires PyInt(s) == Some(n) && IsCanonical(Trim(IntSpace, s))
    ensures Trim(IntSpace, s) == Decimal(n)
  {
    ReadIntCanonical(Trim(IntSpace, s), n);
  }

  lemma ReadIntCanonical(t: string, n: int)
    requires ReadInt(t) == Some(n) && IsCanonical(t)
    ensures t == Decimal(n)
  {
    if t[0] == '-' {
      ReadNegativeCanonical(t, n);
    } else {
      assert IsDigit(t[0]);
      CanonicalDigits(t);
    }
  }

  lemma ReadNegativeCanonical(t: string, n: int)
    requires ReadInt(t) == Some(n) && IsCanonical(t) && t[0] == '-'
    ensures t == Decimal(n)
  {
    var body := t[1..];
    assert body[0] != '0';
    assert n == -(DigitsValue(body) as int);
    CanonicalDigits(body);
    NonZeroLeads(body);
    assert t == "-" + body;
  }

  /** Digits with no leading zero are the decimal text of their value. */
  lemma {:induction false} CanonicalDigits(d: string)
    requires |d| > 0 && forall i :: 0 <= i < |d| ==> IsDigit(d[i])
    requires d[0] == '0' ==> d == "0"
    ensures NatDecimal(DigitsValue(d)) == d
    decreases |d|
  {
    var prefix := d[..|d| - 1];
    if |d| > 1 {
      assert prefix[0] == d[0] != '0';
      CanonicalDigits(prefix);
      NonZeroLeads(prefix);
      var v := DigitsValue(d);
      assert v == 10 * DigitsValue(prefix) + DigitValue(d[|d| - 1]);
      assert v / 10 == DigitsValue(prefix) && v % 10 == DigitValue(d[|d| - 1]);
      assert d == prefix + [d[|d| - 1]];
    } else {
      assert DigitsValue(prefix) == 0;
    }
  }

  /** Digits that do not start with zero have a positive value. */
  lemma {:induction false} NonZeroLeads(d: string)
    requires |d| > 0 && d[0] != '0' && forall i :: 0 <= i < |d| ==> IsDigit(d[i])
    ensures DigitsValue(d) > 0
    decreases |d|
  {
    if |d| > 1 {
      NonZeroLeads(d[..|d| - 1]);
    } else {
      assert DigitsValue(d[..0]) == 0;
    }
  }

  /** Leading padding in front of a trimmed text is all a trim removes. */
  lemma TrimLeading(p: Padding, pad: string, d: string)
    requires AllPad(p, pad) && IsTrimmed(p, d)
    ensures Trim(p, pad + d) == d
  {
    LeadingPadSkipsPadding(p, pad, d);
    assert (pad + d)[|pad|..] == d;
    if |d| > 0 {
      assert TrimEnd(p, d) == d;
    }
  }

  /** Text that opens with neither a sign nor a digit is no integer. */
  lemma ReadIntNeedsDigit(t: string)
    requires |t| > 0 && t[0] != '+' && t[0] != '-' && !IsDigit(t[0])
    ensures ReadInt(t) == None
  {
  }

  /** Padding on both sides of a trimmed, non-empty text is exactly what a trim removes. */
  lemma TrimPadded(p: Padding, pad: string, d: string)
    requires AllPad(p, pad) && |d| > 0 && IsTrimmed(p, d)
    ensures Trim(p, pad + d + pad) == d
  {
    var s := pad + d + pad;
    assert s == pad + (d + pad);
    LeadingPadSkipsPadding(p, pad, d + pad);
    assert (d + pad)[0] == d[0];
    assert s[|pad|..] == d + pad;
    TrimEndSkipsPadding(p, d, pad);
    assert TrimEnd(p, d) == d;
  }

  lemma {:induction false} LeadingPadSkipsPadding(p: Padding, pad: string, s: string)
    requires AllPad(p, pad)
    ensures LeadingPad(p, pad + s) == |pad| + LeadingPad(p, s)
    decreases |pad|
  {
    if |pad| > 0 {
      assert (pad + s)[0] == pad[0];
      assert (pad + s)[1..] == pad[1..] + s;
      LeadingPadSkipsPadding(p, pad[1..], s);
    } else {
      assert pad + s == s;
    }
  }

  lemma {:induction false} TrimEndSkipsPadding(p: Padding, s: string, pad: string)
    requires AllPad(p, pad)
    ensures TrimEnd(p, s + pad) == TrimEnd(p, s)
    decreases |pad|
  {
    if |pad| > 0 {
      assert (s + pad)[..|s + pad| - 1] == s + pad[..|pad| - 1];
      TrimEndSkipsPadding(p, s, pad[..|pad| - 1]);
    } else {
      assert s + pad == s;
    }
  }
}

=== FILE: records.dfy ===
/**
  Properties of the student records and their audit trail across the
  add, edit and delete paths: the range 0..100 that only `add_student`
  enforces, and the audit rows that the cascade on delete takes away.
 */
module Records {
  import opened Options
  import opened PyText
  import opened Helpers
  import opened Models
  import opened Views
  import opened Branches

  predicate MarksInRange(students: map<Id, Student>) {
    forall id :: id in students ==> 0 <= students[id].marks <= 100
  }

  /**
    `add_student` keeps every mark within 0..100: it admits only marks in
    that range and refuses any merge whose sum passes 100.
   */
  lemma AddKeepsMarksInRange(s: Store, verb: HttpMethod, cookie: Option<string>, nameField: string, subjectField: string, marksField: Option<string>)
    requires Valid(s) && MarksInRange(s.students)
    ensures MarksInRange(AddStudent(s, verb, cookie, nameField, subjectField, marksField).store.students)
  {
    if verb == POST && AddInputAccepted(s, cookie, nameField, subjectField, marksField) {
      AddDecides(s, cookie, nameField, subjectField, marksField);
      UpsertKeepsMarksInRange(s, CurrentTeacher(s, cookie).value, Strip(nameField), Strip(subjectField), PyInt(marksField.GetOr("0")).value);
    }
  }

  lemma UpsertKeepsMarksInRange(s: Store, t: Id, name: string, subject: string, marks: int)
    requires Valid(s) && MarksInRange(s.students)
    requires 0 <= marks <= 100
    ensures MarksInRange(Upsert(s, t, name, subject, marks).store.students)
  {
    var named := StudentsNamed(s.students, name, subject);
    if named == {} {
      assert forall x :: x in s.students ==> !(s.students[x].name == name && s.students[x].subject == subject) by {
        forall x | x in s.students
          ensures !(s.students[x].name == name && s.students[x].subject == subject)
        {
          assert x !in named;
        }
      }
      UpsertCreatesRecord(s, t, name, subject, marks);
    } else {
      var id := MinOf(named);
      if s.students[id].marks == marks {
        UpsertRejectsExactDuplicate(s, t, name, subject, marks, id);
      } else if s.students[id].marks + marks > 100 {
        UpsertOverflowCrashes(s, t, name, subject, marks, id);
      } else {
        UpsertMergesMarks(s, t, name, subject, marks, id);
      }
    }
  }

  /**
    The edit form bounds the marks only by the database column's range, so a
    valid edit stores marks above 100, even on a store where every mark was
    in range.
   */
  lemma EditCanLeaveRange(range: IntegerRange, s: Store, cookie: Option<string>, id: Id, form: EditForm)
    requires CurrentTeacher(s, cookie).Some? && id in s.students
    requires EditFormValid(range, s.students, id, form)
    requires form.marks == Some(150)
    ensures var r := EditStudent(range, s, POST, cookie, id, form);
      r.store.students[id].marks == 150 && !MarksInRange(r.store.students)
  {
  }

  /**
    A successful delete writes its `delete` row and the cascade removes it
    again together with every earlier row of the student, so the log
    keeps no trace of the student at all.
   */
  lemma DeleteLeavesNoTrace(s: Store, cookie: Option<string>, id: Id)
    requires Succeeded(DeleteStudent(s, POST, cookie, id).response)
    ensures var log := DeleteStudent(s, POST, cookie, id).store.log;
      && (forall e :: e in log ==> e.student != id)
      && (forall e :: e in log ==> e in s.log)
      && AuditEntry(CurrentTeacher(s, cookie).value, id, Delete, Some(s.students[id].marks), None) !in log
  {
  }

  /** On a valid store, deleting leaves the other records and the audit rows about them as they were. */
  lemma DeleteKeepsOtherRows(s: Store, cookie: Option<string>, id: Id, other: Id)
    requires Valid(s)
    requires Succeeded(DeleteStudent(s, POST, cookie, id).response)
    requires other in s.students && other != id
    ensures var r := DeleteStudent(s, POST, cookie, id).store;
      && other in r.students && r.students[other] == s.students[other]
      && RowsOf(r.log, StudentColumn, other) == RowsOf(s.log, StudentColumn, other)
  {
  }
}

=== FILE: scenarios.dfy ===
/**
  Two-request histories for one (name, subject) pair, starting from a valid
  store where a signed-in teacher adds it for the first time with marks 40.
  Marks arrive as the browser sends them, `str(marks)`.

  Each history is proved in two layers: a lemma that takes the reply (or
  store) as a parameter and derives its contents from the branch lemmas,
  and the history itself, which only feeds the handler's reply to it.
 */
module Scenarios {
  import opened Options
  import opened PyText
  import opened Models
  import opened Views
  import opened Branches

  /** A first `add_student` of the pair from a signed-in teacher. */
  predicate FirstAdd(s: Store, cookie: Option<string>, name: string, subject: string) {
    && Valid(s)
    && CurrentTeacher(s, cookie).Some?
    && name != "" && subject != "" && IsStripped(name) && IsStripped(subject)
    && forall x :: x in s.students ==> !(s.students[x].name == name && s.students[x].subject == subject)
  }

  function AddMarks(s: Store, cookie: Option<string>, name: string, subject: string, marks: int): Reply {
    AddStudent(s, POST, cookie, name, subject, Some(Decimal(marks)))
  }

  /** The store once teacher `t` has created the pair with `marks` under the next id. */
  function CreatedStore(s: Store, t: Id, name: string, subject: string, marks: int): Store {
    var id := s.nextStudentId;
    s.(students := s.students[id := Student(name, subject, marks)],
       log := s.log + [AuditEntry(t, id, Create, None, Some(marks))],
       nextStudentId := id + 1)
  }

  /** Marks in range, written by `str()`, always reach the three-way decision unchanged. */
  lemma AddMarksDecides(s: Store, cookie: Option<string>, name: string, subject: string, marks: int)
    requires CurrentTeacher(s, cookie).Some?
    requires name != "" && subject != "" && IsStripped(name) && IsStripped(subject)
    requires 0 <= marks <= 100
    ensures AddMarks(s, cookie, name, subject, marks) == Upsert(s, CurrentTeacher(s, cookie).value, name, subject, marks)
  {
    var field := Some(Decimal(marks));
    PyIntSmallDecimal(marks);
    assert field.GetOr("0") == Decimal(marks);
    assert AddInputAccepted(s, cookie, name, subject, field);
    AddDecides(s, cookie, name, subject, field);
  }

  lemma FirstAddCreates(s: Store, cookie: Option<string>, name: string, subject: string, marks: int)
    requires FirstAdd(s, cookie, name, subject)
    requires 0 <= marks <= 100
    ensures AddMarks(s, cookie, name, subject, marks).store == CreatedStore(s, CurrentTeacher(s, cookie).value, name, subject, marks)
  {
    AddMarksDecides(s, cookie, name, subject, marks);
    CreatedReply(AddMarks(s, cookie, name, subject, marks), s, CurrentTeacher(s, cookie).value, name, subject, marks);
  }

  /** Any reply equal to the creating `Upsert` carries the created store. */
  lemma CreatedReply(r: Reply, s: Store, t: Id, name: string, subject: string, marks: int)
    requires forall x :: x in s.students ==> !(s.students[x].name == name && s.students[x].subject == subject)
    requires r == Upsert(s, t, name, subject, marks)
    ensures r.store == CreatedStore(s, t, name, subject, marks)
  {
    UpsertCreatesRecord(s, t, name, subject, marks);
  }

  /** After the first add the pair exists once, under the next id, and the same cookie still signs the teacher in. */
  lemma AfterFirstAdd(s: Store, cookie: Option<string>, name: string, subject: string)
    requires FirstAdd(s, cookie, name, subject)
    ensures var s1 := AddMarks(s, cookie, name, subject, 40).store;
      && s1.students == s.students[s.nextStudentId := Student(name, subject, 40)]
      && s1.log == s.log + [AuditEntry(CurrentTeacher(s, cookie).value, s.nextStudentId, Create, None, Some(40))]
      && UniqueNameSubject(s1.students)
      && CurrentTeacher(s1, cookie) == CurrentTeacher(s, cookie)
  {
    FirstAddCreates(s, cookie, name, subject, 40);
    CreatedStoreFacts(s, cookie, name, subject, AddMarks(s, cookie, name, subject, 40).store);
  }

  lemma CreatedStoreFacts(s: Store, cookie: Option<string>, name: string, subject: string, s1: Store)
    requires FirstAdd(s, cookie, name, subject)
    requires s1 == CreatedStore(s, CurrentTeacher(s, cookie).value, name, subject, 40)
    ensures s1.students == s.students[s.nextStudentId := Student(name, subject, 40)]
    ensures s1.log == s.log + [AuditEntry(CurrentTeacher(s, cookie).value, s.nextStudentId, Create, None, Some(40))]
    ensures UniqueNameSubject(s1.students)
    ensures CurrentTeacher(s1, cookie) == CurrentTeacher(s, cookie)
  {
    assert forall x :: x in s.students ==> x != s.nextStudentId;
  }

  /** The second add of a pair that holds `first` marks, with other marks that keep the sum within 100. */
  lemma SecondAddMerges(s1: Store, cookie: Option<string>, name: string, subject: string, id: Id, first: int, second: int)
    requires UniqueNameSubject(s1.students) && CurrentTeacher(s1, cookie).Some?
    requires name != "" && subject != "" && IsStripped(name) && IsStripped(subject)
    requires id in s1.students && s1.students[id] == Student(name, subject, first)
    requires 0 <= second <= 100 && first != second && first + second <= 100
    ensures var r2 := AddMarks(s1, cookie, name, subject, second);
      && r2.response == Json(200, StudentBody(StudentView(id, name, subject, first + second)))
      && r2.store.students == s1.students[id := Student(name, subject, first + second)]
      && r2.store.log == s1.log + [AuditEntry(CurrentTeacher(s1, cookie).value, id, Update, Some(first), Some(first + second))]
  {
    AddMarksDecides(s1, cookie, name, subject, second);
    MergedReply(AddMarks(s1, cookie, name, subject, second), s1, CurrentTeacher(s1, cookie).value, name, subject, id, first, second);
  }

  /** Any reply equal to the merging `Upsert` carries its response, students and log. */
  lemma MergedReply(r: Reply, s1: Store, t: Id, name: string, subject: string, id: Id, first: int, second: int)
    requires UniqueNameSubject(s1.students)
    requires id in s1.students && s1.students[id] == Student(name, subject, first)
    requires first != second && first + second <= 100
    requires r == Upsert(s1, t, name, subject, second)
    ensures && r.response == Json(200, StudentBody(StudentView(id, name, subject, first + second)))
      && r.store.students == s1.students[id := Student(name, subject, first + second)]
      && r.store.log == s1.log + [AuditEntry(t, id, Update, Some(first), Some(first + second))]
  {
    UpsertMergesMarks(s1, t, name, subject, second, id);
  }

  /** Adding 40 and then 30 leaves one record with 70 and a `create` row followed by an `update` row. */
  lemma FortyThenThirty(s: Store, cookie: Option<string>, name: string, subject: string)
    requires FirstAdd(s, cookie, name, subject)
    ensures
      var t := CurrentTeacher(s, cookie).value;
      var id := s.nextStudentId;
      var r2 := AddMarks(AddMarks(s, cookie, name, subject, 40).store, cookie, name, subject, 30);
      && r2.response == Json(200, StudentBody(StudentView(id, name, subject, 70)))
      && r2.store.students == s.students[id := Student(name, subject, 70)]
      && r2.store.log == s.log + [AuditEntry(t, id, Create, None, Some(40)), AuditEntry(t, id, Update, Some(40), Some(70))]
  {
    var t := CurrentTeacher(s, cookie).value;
    var id := s.nextStudentId;
    var s1 := AddMarks(s, cookie, name, subject, 40).store;
    AfterFirstAdd(s, cookie, name, subject);
    SecondAddMerges(s1, cookie, name, subject, id, 40, 30);
    Chain(s, s1, AddMarks(s1, cookie, name, subject, 30), t, id, name, subject);
  }

  /** A `create` with 40 followed by an `update` to 70, seen from the store before both. */
  lemma Chain(s: Store, s1: Store, r2: Reply, t: Id, id: Id, name: string, subject: string)
    requires s1.students == s.students[id := Student(name, subject, 40)]
    requires s1.log == s.log + [AuditEntry(t, id, Create, None, Some(40))]
    requires r2.store.students == s1.students[id := Student(name, subject, 40 + 30)]
    requires r2.store.log == s1.log + [AuditEntry(t, id, Update, Some(40), Some(40 + 30))]
    ensures r2.store.students == s.students[id := Student(name, subject, 70)]
    ensures r2.store.log == s.log + [AuditEntry(t, id, Create, None, Some(40)), AuditEntry(t, id, Update, Some(40), Some(70))]
  {
    var c := AuditEntry(t, id, Create, None, Some(40));
    var u := AuditEntry(t, id, Update, Some(40), Some(70));
    assert s1.log + [u] == s.log + [c, u];
  }

  /** Adding 40 and then 70 crashes on the merge (110 > 100): the record keeps 40 and the log one row. */
  lemma FortyThenSeventy(s: Store, cookie: Option<string>, name: string, subject: string)
    requires FirstAdd(s, cookie, name, subject)
    ensures
      var s1 := AddMarks(s, cookie, name, subject, 40).store;
      AddMarks(s1, cookie, name, subject, 70) == Reply(ServerError, s1)
  {
    var s1 := AddMarks(s, cookie, name, subject, 40).store;
    AfterFirstAdd(s, cookie, name, subject);
    AddMarksDecides(s1, cookie, name, subject, 70);
    SecondAddReply(AddMarks(s1, cookie, name, subject, 70), s1, CurrentTeacher(s1, cookie).value, name, subject, s.nextStudentId, 70);
  }

  /** Adding 40 twice: the second is an exact duplicate, refused with 400 and no new audit row. */
  lemma FortyTwice(s: Store, cookie: Option<string>, name: string, subject: string)
    requires FirstAdd(s, cookie, name, subject)
    ensures
      var s1 := AddMarks(s, cookie, name, subject, 40).store;
      AddMarks(s1, cookie, name, subject, 40) == Reply(Json(400, Failure(DuplicateRecord)), s1)
  {
    var s1 := AddMarks(s, cookie, name, subject, 40).store;
    AfterFirstAdd(s, cookie, name, subject);
    AddMarksDecides(s1, cookie, name, subject, 40);
    SecondAddReply(AddMarks(s1, cookie, name, subject, 40), s1, CurrentTeacher(s1, cookie).value, name, subject, s.nextStudentId, 40);
  }

  /** A second add to a pair holding 40: equal marks are a duplicate, marks that overflow 100 crash. */
  lemma SecondAddReply(r: Reply, s1: Store, t: Id, name: string, subject: string, id: Id, marks: int)
    requires UniqueNameSubject(s1.students)
    requires id in s1.students && s1.students[id] == Student(name, subject, 40)
    requires marks == 40 || marks > 60
    requires r == Upsert(s1, t, name, subject, marks)
    ensures marks == 40 ==> r == Reply(Json(400, Failure(DuplicateRecord)), s1)
    ensures marks > 60 ==> r == Reply(ServerError, s1)
  {
    if marks == 40 {
      UpsertRejectsExactDuplicate(s1, t, name, subject, marks, id);
    } else {
      UpsertOverflowCrashes(s1, t, name, subject, marks, id);
    }
  }

  /**
    Adding 40 and then deleting the record: the record is gone, and so is
    every audit row about it, the `create` row and the `delete` row both,
    so students and log are back to what they were before the add.
   */
  lemma FortyThenDelete(s: Store, cookie: Option<string>, name: string, subject: string)
    requires FirstAdd(s, cookie, name, subject)
    ensures
      var id := s.nextStudentId;
      var s1 := AddMarks(s, cookie, name, subject, 40).store;
      var r2 := DeleteStudent(s1, POST, cookie, id);
      && r2.response == Json(200, Deleted(id))
      && r2.store.students == s.students
      && r2.store.log == s.log
  {
    FirstAddCreates(s, cookie, name, subject, 40);
    DeleteCreated(s, cookie, name, subject, AddMarks(s, cookie, name, subject, 40).store);
  }

  /** Deleting the record just created takes the store back to its students and audit rows before the add. */
  lemma DeleteCreated(s: Store, cookie: Option<string>, name: string, subject: string, s1: Store)
    requires FirstAdd(s, cookie, name, subject)
    requires s1 == CreatedStore(s, CurrentTeacher(s, cookie).value, name, subject, 40)
    ensures
      var id := s.nextStudentId;
      var r2 := DeleteStudent(s1, POST, cookie, id);
      && r2.response == Json(200, Deleted(id))
      && r2.store.students == s.students
      && r2.store.log == s.log
  {
    var id := s.nextStudentId;
    var gone := (e: AuditEntry) => e.student == id;
    assert id !in s.students;
    assert s1.students - {id} == s.students;
    SurvivingAppend(s.log, AuditEntry(CurrentTeacher(s, cookie).value, id, Create, None, Some(40)), gone);
    SurvivingUntouched(s.log, gone);
  }
}

=== FILE: sessions.dfy ===
/**
  What the credential and session rules guarantee across calls: a login
  succeeds exactly for a stored (username, digest) pair, the token it hands
  out resolves to that teacher until logout, and a session outlives a
  password reset but not the teacher it names.
 */
module Sessions {
  import opened Options
  import opened PyText
  import opened Helpers
  import opened Models
  import opened Views

  /** The credentials match the stored row of the teacher `id`. */
  predicate Matches(H: Hasher, s: Store, id: Id, username: string, password: string) {
    id in s.teachers && s.teachers[id].username == username && H(password + s.teachers[id].salt) == s.teachers[id].passwordHash
  }

  /**
    On a valid store a login succeeds if and only if some teacher has the
    stripped username and the digest of password and stored salt; the
    random salt on offer plays no part, and the token then names that
    teacher.
   */
  lemma LoginSucceedsIff(H: Hasher, s: Store, usernameField: string, password: string, newSalt: string, token: string)
    requires Valid(s)
    ensures var r := Login(H, s, POST, usernameField, password, newSalt, token);
      && (r.response.Redirect? <==> exists id :: Matches(H, s, id, Strip(usernameField), password))
      && (r.response.Redirect? ==> exists id :: Matches(H, s, id, Strip(usernameField), password) && r.store.sessions == s.sessions[token := id])
      && (!r.response.Redirect? ==> r.store == s && r.response == Render(LoginPage, ErrorContext(InvalidCredentials)))
  {
    var username := Strip(usernameField);
    var ids := TeachersNamed(s.teachers, username);
    UniqueUsernameLookup(s.teachers, username);
    if ids != {} {
      var id := Get(ids).id;
      assert id in ids;
      assert s.teachers[id].salt != "";
      assert HashPassword(H, password, Some(s.teachers[id].salt), newSalt).digest == H(password + s.teachers[id].salt);
      var r := Login(H, s, POST, usernameField, password, newSalt, token);
      if r.response.Redirect? {
        assert Matches(H, s, id, username, password);
      }
      assert forall x :: Matches(H, s, x, username, password) ==> x == id by {
        forall x | Matches(H, s, x, username, password)
          ensures x == id
        {
          assert x in ids;
        }
      }
    } else {
      assert forall x :: !Matches(H, s, x, username, password) by {
        forall x ensures !Matches(H, s, x, username, password) {
          assert x !in ids;
        }
      }
    }
  }

  /** The token a successful login hands out resolves to the teacher who logged in. */
  lemma LoginThenResolve(H: Hasher, s: Store, usernameField: string, password: string, newSalt: string, token: string)
    requires token != ""
    requires Login(H, s, POST, usernameField, password, newSalt, token).response.Redirect?
    ensures
      var r := Login(H, s, POST, usernameField, password, newSalt, token);
      CurrentTeacher(r.store, Some(token)) == Some(r.store.sessions[token])
      && r.store.sessions[token] == Get(TeachersNamed(s.teachers, Strip(usernameField))).id
  {
    var id := Get(TeachersNamed(s.teachers, Strip(usernameField))).id;
    assert id in TeachersNamed(s.teachers, Strip(usernameField));
  }

  /** Logging out twice is logging out once. */
  lemma LogoutIdempotent(s: Store, cookie: Option<string>)
    ensures Logout(Logout(s, cookie).store, cookie) == Logout(s, cookie)
  {
  }

  /**
    Deleting a teacher leaves the tokens that name it in the dictionary,
    where they keep resolving to no one.
   */
  lemma DeletedTeacherSessionIsStale(s: Store, tid: Id, token: string)
    requires token in s.sessions && s.sessions[token] == tid
    ensures token in DeleteTeacherRow(s, tid).sessions
    ensures CurrentTeacher(DeleteTeacherRow(s, tid), Some(token)) == None
  {
  }

  /** The password a teacher signed up with logs them in, under any token. */
  lemma SignupThenLogin(H: Hasher, s: Store, usernameField: string, password: string, newSalt: string, otherSalt: string, token: string)
    requires Valid(s)
    requires IsHexToken(newSalt, 16)
    requires Signup(H, s, POST, usernameField, password, newSalt).response.Redirect?
    ensures
      var s' := Signup(H, s, POST, usernameField, password, newSalt).store;
      Login(H, s', POST, usernameField, password, otherSalt, token).store.sessions == s.sessions[token := s.nextTeacherId]
  {
    assert newSalt != "" by { assert |newSalt| == 32; }
    LoginAfterSignup(H, s, Signup(H, s, POST, usernameField, password, newSalt).store, Strip(usernameField), usernameField, password, newSalt, otherSalt, token);
  }

  /** The only teacher with a freshly signed-up username is the new row, and its password matches. */
  lemma LoginAfterSignup(H: Hasher, s: Store, s': Store, username: string, usernameField: string, password: string, newSalt: string, otherSalt: string, token: string)
    requires s.nextTeacherId !in s.teachers && newSalt != "" && username == Strip(usernameField)
    requires UsernameFree(s.teachers, username)
    requires s' == s.(teachers := s.teachers[s.nextTeacherId := Teacher(username, H(password + newSalt), newSalt)],
                      nextTeacherId := s.nextTeacherId + 1)
    ensures Login(H, s', POST, usernameField, password, otherSalt, token).store.sessions == s.sessions[token := s.nextTeacherId]
  {
    var teacher := Teacher(username, H(password + newSalt), newSalt);
    InsertedTeacherNamed(s.teachers, s.nextTeacherId, teacher);
    assert Get({s.nextTeacherId}) == OneMatch(s.nextTeacherId);
    assert HashPassword(H, password, Some(newSalt), otherSalt).digest == teacher.passwordHash;
  }

  /** After a password reset the new password logs in. */
  lemma ResetThenLogin(H: Hasher, s: Store, usernameField: string, newPassword: string, newSalt: string, otherSalt: string, token: string)
    requires Valid(s)
    requires IsHexToken(newSalt, 16)
    requires ForgotPassword(H, s, POST, usernameField, newPassword, newPassword, newSalt).response
          == Render(ForgotPasswordPage, Context(None, None, false, true))
    ensures
      var s' := ForgotPassword(H, s, POST, usernameField, newPassword, newPassword, newSalt).store;
      Login(H, s', POST, usernameField, newPassword, otherSalt, token).response == Redirect(StudentsListPage, SetSessionCookie(token))
  {
    var s' := ForgotPassword(H, s, POST, usernameField, newPassword, newPassword, newSalt).store;
    var username := Strip(usernameField);
    var id := Get(TeachersNamed(s.teachers, username)).id;
    assert newSalt != "" by { assert |newSalt| == 32; }
    assert TeachersNamed(s'.teachers, username) == TeachersNamed(s.teachers, username);
  }

  /** A password reset does not end the sessions already open, the reset teacher's included. */
  lemma ResetKeepsSessions(H: Hasher, s: Store, verb: HttpMethod, usernameField: string, newPassword: string, confirmPassword: string, newSalt: string, cookie: Option<string>)
    ensures CurrentTeacher(ForgotPassword(H, s, verb, usernameField, newPassword, confirmPassword, newSalt).store, cookie)
         == CurrentTeacher(s, cookie)
  {
  }

  /** Without a session every JSON endpoint answers 401 and changes nothing; the edit page redirects to login. */
  lemma UnauthenticatedIsRejected(range: IntegerRange, s: Store, cookie: Option<string>, id: Id, nameField: string, subjectField: string, marksField: Option<string>, form: EditForm)
    requires CurrentTeacher(s, cookie).None?
    ensures ListStudents(s, GET, cookie) == Reply(Json(401, Failure(NotAuthenticated)), s)
    ensures AddStudent(s, POST, cookie, nameField, subjectField, marksField) == Reply(Json(401, Failure(NotAuthenticated)), s)
    ensures DeleteStudent(s, POST, cookie, id) == Reply(Json(401, Failure(NotAuthenticated)), s)
    ensures EditStudent(range, s, POST, cookie, id, form) == Reply(Redirect(LoginPage, KeepCookie), s)
    ensures StudentsPage(s, cookie) == Reply(Redirect(LoginPage, KeepCookie), s)
  {
  }
}

=== FILE: views.dfy ===
/**
  The request handlers of the portal, each a function from the store and
  the request's inputs to the response and the next store. Inputs the
  handlers draw from the environment (the cookie, form fields, a random
  salt or token, the digest function) are parameters. A form field that is
  absent is passed as the empty string. That is the default the views read
  most fields with; the marks of `add_student` default to "0" instead, and
  the two password fields of `forgot_password_view` to `None`, which the view
  only tests for truth, exactly as it tests the empty string.
 */
module Views {
  import opened Options
  import opened PyText
  import opened Helpers
  import opened Models

  datatype HttpMethod = GET | POST | OtherMethod

  datatype Page = LoginPage | SignupPage | ForgotPasswordPage | StudentsListPage | EditStudentPage

  /** The template variables the views hand to `render`. */
  datatype Context = Context(error: Option<Message>, username: Option<string>, showPasswordFields: bool, success: bool)

  const Plain := Context(None, None, false, false)

  function ErrorContext(message: Message): Context {
    Context(Some(message), None, false, false)
  }

  datatype Cookie = KeepCookie | SetSessionCookie(token: string) | DeleteSessionCookie

  /** `{"id", "name", "subject", "mark"}` as the JSON endpoints write a student. */
  datatype StudentView = StudentView(id: Id, name: string, subject: string, mark: int)

  datatype Body =
    | Failure(message: Message)
    | StudentBody(student: StudentView)
    | StudentList(students: seq<StudentView>)
    | Deleted(studentId: Id)

  datatype Response =
    | Render(page: Page, context: Context)
    | Redirect(target: Page, cookie: Cookie)
    | Json(status: int, body: Body)
    /** `Http404` from `get_object_or_404`. */
    | NotFound
    /** 405 from `require_POST`, `require_GET` or `require_http_methods`. */
    | MethodNotAllowed
    /** An exception the view does not catch: HTTP 500, nothing saved. */
    | ServerError

  datatype Reply = Reply(response: Response, store: Store)

  /** The messages the views show; `Text` gives each one's wording. */
  datatype Message =
    | AllFieldsRequired | UsernameTaken
    | UsernameNotFound | PasswordsDoNotMatch | FillAllFields
    | InvalidCredentials | NotAuthenticated
    | MarksNotANumber | FieldsRequired | MarksOutOfRange | DuplicateRecord | TotalExceeded
    | StudentNotFound
    /** Stands for the field errors Django attaches to an invalid bound form. */
    | FormErrors

  /**
    The wording the portal gives each message. The field errors of an
    invalid form have no fixed text: Django composes them per field.
   */
  function Text(m: Message): Option<string> {
    match m
    case AllFieldsRequired => Some("All fields required")
    case UsernameTaken => Some("Username already taken")
    case UsernameNotFound => Some("Username not found")
    case PasswordsDoNotMatch => Some("Passwords do not match")
    case FillAllFields => Some("Please fill all required fields")
    case InvalidCredentials => Some("Invalid credentials")
    case NotAuthenticated => Some("Not authenticated")
    case MarksNotANumber => Some("Marks must be a number")
    case FieldsRequired => Some("All fields are required")
    case MarksOutOfRange => Some("Marks must be between 0 and 100")
    case DuplicateRecord => Some("Student with same name, subject and marks already exists")
    case TotalExceeded => Some("Total marks cannot exceed 100")
    case StudentNotFound => Some("Student not found")
    case FormErrors => Some("(the form's field errors)")
  }

  function View(id: Id, st: Student): StudentView {
    StudentView(id, st.name, st.subject, st.marks)
  }

  /** A JSON reply the API endpoints send with `"success": true`. */
  predicate Succeeded(r: Response) {
    r.Json? && r.status == 200
  }

  // ---------------------------------------------------------------------
  // Sessions and credentials
  // ---------------------------------------------------------------------

  /**
    `_get_current_teacher`: the id behind the `session_token` cookie, or
    `None` when the cookie is absent or empty, the token is unknown, or the
    teacher it names no longer exists.
   */
  function CurrentTeacher(s: Store, cookie: Option<string>): (r: Option<Id>)
    ensures r.Some? <==>
      cookie.Some? && cookie.value != "" && cookie.value in s.sessions && s.sessions[cookie.value] in s.teachers
    ensures r.Some? ==> r.value == s.sessions[cookie.value] && r.value in s.teachers
  {
    if cookie.None? || cookie.value == "" || cookie.value !in s.sessions then None
    else if s.sessions[cookie.value] in s.teachers then Some(s.sessions[cookie.value])
    else None
  }

  /**
    `signup_view`. On POST the stripped username and the password must both
    be non-empty and the username unused; the password is hashed under the
    salt `newSalt` and a teacher row is inserted.
   */
  function Signup(H: Hasher, s: Store, verb: HttpMethod, usernameField: string, password: string, newSalt: string): (r: Reply)
    ensures r.store.students == s.students && r.store.log == s.log && r.store.sessions == s.sessions
    ensures r.response.Redirect? <==>
      && verb == POST
      && Strip(usernameField) != "" && password != ""
      && UsernameFree(s.teachers, Strip(usernameField))
    ensures !r.response.Redirect? ==> r.store == s
    ensures r.response.Redirect? ==>
      && r.response == Redirect(LoginPage, KeepCookie)
      && r.store == s.(teachers := s.teachers[s.nextTeacherId := Teacher(Strip(usernameField), H(password + newSalt), newSalt)],
                       nextTeacherId := s.nextTeacherId + 1)
  {
    if verb != POST then Reply(Render(SignupPage, Plain), s)
    else
      var username := Strip(usernameField);
      if username == "" || password == "" then Reply(Render(SignupPage, ErrorContext(AllFieldsRequired)), s)
      else if TeachersNamed(s.teachers, username) != {} then
        TeachersNamedEmpty(s.teachers, username);
        Reply(Render(SignupPage, ErrorContext(UsernameTaken)), s)
      else
        TeachersNamedEmpty(s.teachers, username);
        var hashed := HashPassword(H, password, None, newSalt);
        var id := s.nextTeacherId;
        var s' := s.(teachers := s.teachers[id := Teacher(username, hashed.digest, hashed.salt)], nextTeacherId := id + 1);
        Reply(Redirect(LoginPage, KeepCookie), s')
  }

  /**
    `login_view`. On POST the teacher is looked up by stripped username; the
    password is hashed under the stored salt (or `newSalt`, should the stored
    one be empty) and compared with the stored digest. A match stores
    `token` -> teacher id in the session dictionary and sets the cookie.
   */
  function Login(H: Hasher, s: Store, verb: HttpMethod, usernameField: string, password: string, newSalt: string, token: string): (r: Reply)
    ensures r.store.(sessions := s.sessions) == s
    ensures r.store.sessions != s.sessions ==> r.store.sessions.Keys == s.sessions.Keys + {token}
    ensures r.response.Redirect? <==>
      && verb == POST
      && Get(TeachersNamed(s.teachers, Strip(usernameField))).OneMatch?
      && var id := Get(TeachersNamed(s.teachers, Strip(usernameField))).id;
         HashPassword(H, password, Some(s.teachers[id].salt), newSalt).digest == s.teachers[id].passwordHash
    ensures r.response.Redirect? ==>
      && r.response == Redirect(StudentsListPage, SetSessionCookie(token))
      && r.store.sessions == s.sessions[token := Get(TeachersNamed(s.teachers, Strip(usernameField))).id]
    ensures !r.response.Redirect? ==> r.store == s
  {
    if verb != POST then Reply(Render(LoginPage, Plain), s)
    else
      match Get(TeachersNamed(s.teachers, Strip(usernameField)))
      case NoMatch => Reply(Render(LoginPage, ErrorContext(InvalidCredentials)), s)
      case ManyMatches => Reply(ServerError, s)
      case OneMatch(id) =>
        assert id in TeachersNamed(s.teachers, Strip(usernameField));
        var teacher := s.teachers[id];
        if HashPassword(H, password, Some(teacher.salt), newSalt).digest == teacher.passwordHash then
          Reply(Redirect(StudentsListPage, SetSessionCookie(token)), s.(sessions := s.sessions[token := id]))
        else Reply(Render(LoginPage, ErrorContext(InvalidCredentials)), s)
  }

  /** `logout_view`: drops the cookie's token from the session dictionary, if there. */
  function Logout(s: Store, cookie: Option<string>): (r: Reply)
    ensures r.response == Redirect(LoginPage, DeleteSessionCookie)
    ensures r.store.(sessions := s.sessions) == s
    ensures cookie.Some? ==> r.store.sessions == s.sessions - {cookie.value}
    ensures cookie.None? ==> r.store == s
    ensures cookie.Some? ==> CurrentTeacher(r.store, cookie).None?
  {
    if cookie.Some? && cookie.value in s.sessions then
      Reply(Redirect(LoginPage, DeleteSessionCookie), s.(sessions := s.sessions - {cookie.value}))
    else
      Reply(Redirect(LoginPage, DeleteSessionCookie), s)
  }

  /**
    `forgot_password_view`. A POST with only a username reports whether the
    account exists; a POST with a username and both password fields resets
    the password under the salt `newSalt` when the account exists and the
    two fields agree; anything else is incomplete.
   */
  function ForgotPassword(H: Hasher, s: Store, verb: HttpMethod, usernameField: string, newPassword: string, confirmPassword: string, newSalt: string): (r: Reply)
    ensures r.store.students == s.students && r.store.log == s.log && r.store.sessions == s.sessions
    ensures r.store.teachers.Keys == s.teachers.Keys
    ensures r.store.nextTeacherId == s.nextTeacherId && r.store.nextStudentId == s.nextStudentId
    ensures r.store != s ==>
      && verb == POST
      && newPassword != "" && newPassword == confirmPassword
      && Get(TeachersNamed(s.teachers, Strip(usernameField))).OneMatch?
      && var id := Get(TeachersNamed(s.teachers, Strip(usernameField))).id;
         r.store.teachers == s.teachers[id := s.teachers[id].(passwordHash := H(newPassword + newSalt), salt := newSalt)]
    ensures r.response == Render(ForgotPasswordPage, Context(None, None, false, true)) <==>
      && verb == POST
      && Strip(usernameField) != "" && newPassword != "" && newPassword == confirmPassword
      && Get(TeachersNamed(s.teachers, Strip(usernameField))).OneMatch?
    ensures r.response == Render(ForgotPasswordPage, Context(None, None, false, true)) ==>
      var id := Get(TeachersNamed(s.teachers, Strip(usernameField))).id;
      r.store.teachers == s.teachers[id := s.teachers[id].(passwordHash := H(newPassword + newSalt), salt := newSalt)]
    ensures r.response != Render(ForgotPasswordPage, Context(None, None, false, true)) ==> r.store == s
    // Step 1: a username alone shows the password fields exactly when the account exists.
    ensures verb == POST && Strip(usernameField) != "" && newPassword == "" && confirmPassword == "" ==>
      && r.response.Render?
      && (r.response.context.showPasswordFields <==> !UsernameFree(s.teachers, Strip(usernameField)))
      && (r.response.context.showPasswordFields ==> r.response.context.username == Some(Strip(usernameField)))
    // Steps 1 and 2 both answer "Username not found" exactly for an unknown account.
    ensures verb == POST && Strip(usernameField) != "" && (newPassword == "") == (confirmPassword == "") ==>
      (r.response == Render(ForgotPasswordPage, ErrorContext(UsernameNotFound)) <==> UsernameFree(s.teachers, Strip(usernameField)))
    // Step 2: the two password fields must agree.
    ensures r.response.Render? && r.response.context.error == Some(PasswordsDoNotMatch) <==>
      && verb == POST
      && Strip(usernameField) != "" && newPassword != "" && confirmPassword != "" && newPassword != confirmPassword
      && !UsernameFree(s.teachers, Strip(usernameField))
    // Anything else is incomplete.
    ensures r.response == Render(ForgotPasswordPage, ErrorContext(FillAllFields)) <==>
      verb == POST && (Strip(usernameField) == "" || (newPassword == "") != (confirmPassword == ""))
  {
    if verb != POST then Reply(Render(ForgotPasswordPage, Plain), s)
    else
      var username := Strip(usernameField);
      TeachersNamedEmpty(s.teachers, username);
      if username != "" && newPassword == "" && confirmPassword == "" then
        if TeachersNamed(s.teachers, username) == {} then
          Reply(Render(ForgotPasswordPage, ErrorContext(UsernameNotFound)), s)
        else
          Reply(Render(ForgotPasswordPage, Context(None, Some(username), true, false)), s)
      else if username != "" && newPassword != "" && confirmPassword != "" then
        if TeachersNamed(s.teachers, username) == {} then
          Reply(Render(ForgotPasswordPage, ErrorContext(UsernameNotFound)), s)
        else if newPassword != confirmPassword then
          Reply(Render(ForgotPasswordPage, Context(Some(PasswordsDoNotMatch), Some(username), true, false)), s)
        else
          match Get(TeachersNamed(s.teachers, username))
          case OneMatch(id) =>
            assert id in TeachersNamed(s.teachers, username);
            var hashed := HashPassword(H, newPassword, None, newSalt);
            var teacher := s.teachers[id].(passwordHash := hashed.digest, salt := hashed.salt);
            Reply(Render(ForgotPasswordPage, Context(None, None, false, true)), s.(teachers := s.teachers[id := teacher]))
          case _ => Reply(ServerError, s)
      else
        Reply(Render(ForgotPasswordPage, ErrorContext(FillAllFields)), s)
  }

  // ---------------------------------------------------------------------
  // Students
  // ---------------------------------------------------------------------

  /** `students_list`: the page shell, for a signed-in teacher only. */
  function StudentsPage(s: Store, cookie: Option<string>): (r: Reply)
    ensures r.store == s
    ensures r.response.Render? <==> CurrentTeacher(s, cookie).Some?
    ensures r.response.Render? ==>
      r.response.context.username == Some(s.teachers[CurrentTeacher(s, cookie).value].username)
  {
    match CurrentTeacher(s, cookie)
    case None => Reply(Redirect(LoginPage, KeepCookie), s)
    case Some(t) => Reply(Render(StudentsListPage, Context(None, Some(s.teachers[t].username), false, false)), s)
  }

  function ViewsOf(students: map<Id, Student>, ids: seq<Id>): (r: seq<StudentView>)
    requires forall i :: 0 <= i < |ids| ==> ids[i] in students
    ensures |r| == |ids|
    ensures forall i :: 0 <= i < |ids| ==> r[i] == View(ids[i], students[ids[i]])
  {
    if ids == [] then [] else [View(ids[0], students[ids[0]])] + ViewsOf(students, ids[1..])
  }

  /** `list` shows every record of `students` exactly once, in ascending id order. */
  predicate ListsInIdOrder(list: seq<StudentView>, students: map<Id, Student>) {
    && |list| == |students|
    && (forall i, j :: 0 <= i < j < |list| ==> list[i].id < list[j].id)
    && (forall i :: 0 <= i < |list| ==> list[i].id in students && list[i] == View(list[i].id, students[list[i].id]))
    && (forall id :: id in students ==> exists i :: 0 <= i < |list| && list[i].id == id)
  }

  lemma SortedViews(students: map<Id, Student>)
    ensures ListsInIdOrder(ViewsOf(students, SortedIds(students.Keys)), students)
  {
    var ids := SortedIds(students.Keys);
    var list := ViewsOf(students, ids);
    assert |students.Keys| == |students|;
    forall id | id in students
      ensures exists i :: 0 <= i < |list| && list[i].id == id
    {
      var i :| 0 <= i < |ids| && ids[i] == id;
      assert list[i].id == id;
    }
  }

  /** `get_students`: every student, in ascending id order. */
  function ListStudents(s: Store, verb: HttpMethod, cookie: Option<string>): (r: Reply)
    ensures r.store == s
    ensures Succeeded(r.response) <==> verb == GET && CurrentTeacher(s, cookie).Some?
    ensures Succeeded(r.response) ==> r.response.body.StudentList? && ListsInIdOrder(r.response.body.students, s.students)
  {
    if verb != GET then Reply(MethodNotAllowed, s)
    else match CurrentTeacher(s, cookie)
    case None => Reply(Json(401, Failure(NotAuthenticated)), s)
    case Some(_) =>
      SortedViews(s.students);
      Reply(Json(200, StudentList(ViewsOf(s.students, SortedIds(s.students.Keys)))), s)
  }

  /**
    The three-way decision of `add_student` once the input has passed its
    guards, in its fixed order: an exact (name, subject, marks) match is
    refused; otherwise a (name, subject) match has the marks added to it
    through `calculate_new_marks`; otherwise a record is created. An
    accepted request appends exactly one audit row, by teacher `t`, about
    the record it returns; every other outcome leaves the store as it was.
   */
  function Upsert(s: Store, t: Id, name: string, subject: string, marks: int): (r: Reply)
    ensures r.store.teachers == s.teachers && r.store.sessions == s.sessions
    ensures !Succeeded(r.response) ==> r.store == s
    ensures Succeeded(r.response) ==>
      && |r.store.log| == |s.log| + 1
      && r.store.log[..|s.log|] == s.log
      && r.store.log[|s.log|].teacher == t
      && r.response.body.StudentBody?
      && var st := r.response.body.student;
      && st.id == r.store.log[|s.log|].student
      && st.id in r.store.students
      && st == View(st.id, r.store.students[st.id])
      && r.store.students == s.students[st.id := r.store.students[st.id]]
    ensures r.response != Json(400, Failure(TotalExceeded))
  {
    if StudentsExactly(s.students, name, subject, marks) != {} then Reply(Json(400, Failure(DuplicateRecord)), s)
    else match First(StudentsNamed(s.students, name, subject))
      case Some(id) =>
        var previous := s.students[id].marks;
        (match CalculateNewMarks(previous, marks)
         case ValueError(_) => Reply(ServerError, s)
         case Total(total) =>
           if total > 100 then Reply(Json(400, Failure(TotalExceeded)), s)
           else
             var merged := s.students[id].(marks := total);
             var s' := s.(students := s.students[id := merged],
                          log := s.log + [AuditEntry(t, id, Update, Some(previous), Some(total))]);
             assert s'.log[..|s.log|] == s.log;
             Reply(Json(200, StudentBody(View(id, merged))), s'))
      case None =>
        var id := s.nextStudentId;
        var created := Student(name, subject, marks);
        var s' := s.(students := s.students[id := created],
                     log := s.log + [AuditEntry(t, id, Create, None, Some(marks))],
                     nextStudentId := id + 1);
        assert s'.log[..|s.log|] == s.log;
        Reply(Json(200, StudentBody(View(id, created))), s')
  }

  /**
    `add_student`: a POST from a signed-in teacher whose stripped name and
    subject are non-empty and whose marks `int()` reads as a value in
    0..100 goes on to `Upsert`; every other request is refused with the
    store untouched.
   */
  function AddStudent(s: Store, verb: HttpMethod, cookie: Option<string>, nameField: string, subjectField: string, marksField: Option<string>): (r: Reply)
    ensures r.store.teachers == s.teachers && r.store.sessions == s.sessions
    ensures !Succeeded(r.response) ==> r.store == s
    ensures Succeeded(r.response) ==>
      && verb == POST && CurrentTeacher(s, cookie).Some?
      && Strip(nameField) != "" && Strip(subjectField) != ""
      && PyInt(marksField.GetOr("0")).Some? && 0 <= PyInt(marksField.GetOr("0")).value <= 100
      && |r.store.log| == |s.log| + 1
      && r.store.log[..|s.log|] == s.log
      && r.store.log[|s.log|].teacher == CurrentTeacher(s, cookie).value
    ensures r.response != Json(400, Failure(TotalExceeded))
  {
    if verb != POST then Reply(MethodNotAllowed, s)
    else match CurrentTeacher(s, cookie)
    case None => Reply(Json(401, Failure(NotAuthenticated)), s)
    case Some(t) =>
      var name := Strip(nameField);
      var subject := Strip(subjectField);
      match PyInt(marksField.GetOr("0"))
      case None => Reply(Json(400, Failure(MarksNotANumber)), s)
      case Some(marks) =>
        if name == "" || subject == "" then Reply(Json(400, Failure(FieldsRequired)), s)
        else if marks < 0 || marks > 100 then Reply(Json(400, Failure(MarksOutOfRange)), s)
        else Upsert(s, t, name, subject, marks)
  }

  /** The edit form's bound data: the two text fields as sent, the marks as `forms.IntegerField` cleaned them. */
  datatype EditForm = EditForm(name: string, subject: string, marks: Option<int>)

  /**
    The values the database backend admits in an `IntegerField` column
    (`connection.ops.integer_field_range`); the model field turns them into
    minimum and maximum validators. Which backend runs is configuration, so
    the range is a parameter.
   */
  datatype IntegerRange = IntegerRange(lo: int, hi: int)

  /**
    What the edit form's `is_valid()` checks on the bound data: the stripped
    name and subject are present, at most 100 characters (`CharField` with
    `max_length=100`) and free of NUL characters (every form `CharField`
    refuses them), the marks cleaned to an integer inside the backend's
    `IntegerField` range, and no other student already has the
    (name, subject) pair (`unique_together`).
   */
  predicate EditFormValid(range: IntegerRange, students: map<Id, Student>, id: Id, form: EditForm) {
    var name := Strip(form.name);
    var subject := Strip(form.subject);
    && name != "" && |name| <= 100 && '\0' !in name
    && subject != "" && |subject| <= 100 && '\0' !in subject
    && form.marks.Some? && range.lo <= form.marks.value <= range.hi
    && forall other :: other in students && other != id ==>
         !(students[other].name == name && students[other].subject == subject)
  }

  /**
    `edit_student_form`. A valid POST overwrites name, subject and marks of
    an existing record and appends one `edit` row; a GET, an invalid form,
    a missing session or an unknown id changes nothing.
   */
  function EditStudent(range: IntegerRange, s: Store, verb: HttpMethod, cookie: Option<string>, id: Id, form: EditForm): (r: Reply)
    ensures r.store.teachers == s.teachers && r.store.sessions == s.sessions
    ensures r.store.nextStudentId == s.nextStudentId
    ensures r.response == NotFound <==>
      (verb == GET || verb == POST) && CurrentTeacher(s, cookie).Some? && id !in s.students
    ensures r.store != s <==>
      verb == POST && CurrentTeacher(s, cookie).Some? && id in s.students && EditFormValid(range, s.students, id, form)
    ensures r.store != s ==>
      && r.response == Redirect(StudentsListPage, KeepCookie)
      && r.store.students == s.students[id := Student(Strip(form.name), Strip(form.subject), form.marks.value)]
      && r.store.log == s.log + [AuditEntry(CurrentTeacher(s, cookie).value, id, Edit, Some(s.students[id].marks), form.marks)]
  {
    if verb != GET && verb != POST then Reply(MethodNotAllowed, s)
    else match CurrentTeacher(s, cookie)
    case None => Reply(Redirect(LoginPage, KeepCookie), s)
    case Some(t) =>
      if id !in s.students then Reply(NotFound, s)
      else if verb == GET then Reply(Render(EditStudentPage, Plain), s)
      else if !EditFormValid(range, s.students, id, form) then Reply(Render(EditStudentPage, ErrorContext(FormErrors)), s)
      else
        var previous := s.students[id].marks;
        var updated := Student(Strip(form.name), Strip(form.subject), form.marks.value);
        var s' := s.(students := s.students[id := updated],
                     log := s.log + [AuditEntry(t, id, Edit, Some(previous), Some(updated.marks))]);
        assert |s'.log| != |s.log|;
        Reply(Redirect(StudentsListPage, KeepCookie), s')
  }

  /**
    `delete_student`. The `delete` audit row is written first and the
    student deleted after; the cascade on `AuditLog.student` then removes
    every audit row of that student, the fresh `delete` row included.
   */
  function DeleteStudent(s: Store, verb: HttpMethod, cookie: Option<string>, id: Id): (r: Reply)
    ensures r.store.teachers == s.teachers && r.store.sessions == s.sessions
    ensures r.store.nextStudentId == s.nextStudentId
    ensures Succeeded(r.response) <==> verb == POST && CurrentTeacher(s, cookie).Some? && id in s.students
    ensures r.response == Json(404, Failure(StudentNotFound)) <==>
      verb == POST && CurrentTeacher(s, cookie).Some? && id !in s.students
    ensures !Succeeded(r.response) ==> r.store == s
    ensures Succeeded(r.response) ==>
      && r.response.body == Deleted(id)
      && r.store == DeleteStudentRow(s, id)
      && r.store.students == s.students - {id}
      && (forall e :: e in r.store.log <==> e in s.log && e.student != id)
      && (forall x :: x != id ==> RowsOf(r.store.log, StudentColumn, x) == RowsOf(s.log, StudentColumn, x))
      && multiset(r.store.log) + multiset(RowsOf(s.log, StudentColumn, id)) == multiset(s.log)
  {
    if verb != POST then Reply(MethodNotAllowed, s)
    else match CurrentTeacher(s, cookie)
    case None => Reply(Json(401, Failure(NotAuthenticated)), s)
    case Some(t) =>
      if id !in s.students then Reply(Json(404, Failure(StudentNotFound)), s)
      else
        var previous := s.students[id].marks;
        var logged := s.(log := s.log + [AuditEntry(t, id, Delete, Some(previous), None)]);
        var s' := DeleteStudentRow(logged, id);
        LoggedRowVanishes(s, AuditEntry(t, id, Delete, Some(previous), None), id);
        Reply(Json(200, Deleted(id)), s')
  }
}
